=== FILE: README.md ===
# strat-opt core in Dafny

strat-opt is a backtesting and optimization tool for the SPHY strategy. The
strategy switches a position between invested and cash using a credit-spread
indicator. This project models the parts of it that decide things:

- **Position loop.** The loop shared by all strategies (`Strategy`). The SPHY
  sell and buy rules plug into it (`Sphy`), and so does buy-and-hold.
- **Grid search.** The Cartesian product of the five parameter grids
  (`Product`), and the optimizer that picks the highest-APY tuple
  (`Optimizer`).
- **API endpoints.** The API's result building: NaN-safe floats, the trade
  history sorted newest first, the signal endpoint, and the optimizer's
  server-sent event stream (`Api`).
- **Frontend state.**
  - Expansion of a `{min, max, step}` range into a grid (`Grid`).
  - The optimizer session hook (`Session`) and the optimizer tab with its
    drill-down chart (`Tab`).
  - The sortable result table (`Table`).
  - The equity chart's merging, markers and CSV export (`Chart`).
  - The settings store (`SettingsStore`).
  - The loading/result/error lifecycle of the signal and buy-and-hold hooks
    (`Lifecycle`).

Shared types live in `Types`, `Option`/`Result` in `Wrappers`, and the numeric
helpers in `Numeric`:
- JavaScript's `Math.round`;
- `toFixed` followed by `parseFloat`;
- Python's `int()`.

A stable insertion sort (`Sorting`) backs both the table sort and the
trade-history sort.

Numbers are exact reals. A NaN or missing value is `None`, and a date is an
integer day number. Indicators and the data loader are not part of this
model: `IndicatorEngine` and `WeeklyDataLoader` are function parameters. Of
`Backtester.run`, only the frame it returns (the input frame with a `Strategy`
column) and its failure on an empty frame are modelled, by `Api.BacktesterFrame`;
the equity, final value and APY it computes are a function parameter.

## Model

| member | source | states |
|---|---|---|
| Numeric.JsRound | frontend/src/components/tabs/OptimizerTab.tsx:45 | `Math.round` gives the integer within half a unit of its argument, rounding halves up |
| Numeric.PyInt | code/optimizer_sphy.py:110 | `int()` truncates toward zero: the result keeps the sign and lies within 1 of the argument, on the side of zero |
| Numeric.PyIntOfIntegral | code/optimizer_sphy.py:116 | `int()` of an integral float is that same number |
| Numeric.JsRoundOfIntegral | frontend/src/components/tabs/OptimizerTab.tsx:45 | `Math.round` of a whole number is that number |
| Numeric.ToFixedKeepsExactDecimals | frontend/src/components/ParameterPanel.tsx:30 | `parseFloat(x.toFixed(d))` returns `x` when `x` already has at most `d` decimals |
| Numeric.ToFixedZeroIsIntegral | frontend/src/components/ParameterPanel.tsx:30 | rounding to 0 decimals gives a whole number |
| Numeric.ToFixedError | frontend/src/components/ParameterPanel.tsx:30 | rounding to `d` decimals moves a value by at most half a unit in the `d`-th place |
| Numeric.ToFixedMonotone | frontend/src/components/ParameterPanel.tsx:30 | rounding to `d` decimals preserves order |
| Grid.RangeToArray | frontend/src/components/ParameterPanel.tsx:26-33 | the loop pushes `round(( max-min)/step) + 1` values, the i-th being `min + i*step` at `decimals` decimals. It pushes none when that bound is negative, and agrees with the recursive `Expand` |
| Grid.ExpandStartsAtMin | frontend/src/components/ParameterPanel.tsx:28-30 | a non-empty expansion starts at `min` rounded, which is `min` itself when `min` has that many decimals |
| Grid.ExpandSingleton | frontend/src/components/ParameterPanel.tsx:26-33 | `min == max` with a non-zero step expands to the single value `min` |
| Grid.ExpandExample | frontend/src/components/ParameterPanel.tsx:26-33 | `{50, 55, 5}` with no decimals expands to `[50, 55]` |
| Grid.ExpandTracksProgression | frontend/src/components/ParameterPanel.tsx:30 | each pushed value is within half a unit of the exact arithmetic progression |
| Grid.ExpandNonDecreasing | frontend/src/components/ParameterPanel.tsx:29-31 | with a positive step the grid never decreases |
| Grid.ExpandEndsNearMax | frontend/src/components/ParameterPanel.tsx:28 | with a positive step the last unrounded value is within half a step of `max` |
| Grid.SetField | frontend/src/components/ParameterPanel.tsx:106-111 | editing one field sets it to the parsed number, or 0 when the text is unparseable. Every other field of every parameter is unchanged |
| Grid.MaGridIsWholeExpansion | frontend/src/components/tabs/OptimizerTab.tsx:45 | the MA grid is the expansion at 0 decimals, and the extra `Math.round` leaves it unchanged, since every value is already whole |
| Grid.BuildGridsShape | frontend/src/components/tabs/OptimizerTab.tsx:44-50 | each submitted grid has its range's count of values, and the MA grid holds whole numbers only |
| Table.ToParamsDropsPerformance | frontend/src/components/OptimizerTable.tsx:20-22 | two rows project to the same tuple exactly when their five parameter fields agree; APY and final value are dropped |
| Table.ParamsMatchIsEquality | frontend/src/components/OptimizerTable.tsx:24-26 | field-wise matching is tuple equality, hence reflexive, symmetric and transitive |
| Table.HandleSort | frontend/src/components/OptimizerTable.tsx:53-60 | the clicked column becomes the key. Clicking the current column flips the direction; a new column starts descending |
| Table.HandleSortTwice | frontend/src/components/OptimizerTable.tsx:53-60 | clicking the same column twice restores the sort state; clicking a new column twice leaves it ascending |
| Table.SortedRows | frontend/src/components/OptimizerTable.tsx:62-66 | the output is a permutation of the rows, ordered by the key in the chosen direction, and equal keys keep their input order |
| Table.FlagsOf | frontend/src/components/OptimizerTable.tsx:95-97 | a row is highlighted iff it matches the selected tuple, and expanded iff it matches the open chart's tuple |
| Sorting.SortBy | api/main.py:110 | the output is sorted by key and is a permutation of the input. Elements with equal keys keep their relative order |
| Sorting.InsertKeepsOrder | frontend/src/components/OptimizerTable.tsx:62-66 | inserting into a sorted sequence keeps it sorted, adds one occurrence, and puts the element after the existing elements with its key |
| Sorting.WithKeyConcat | api/main.py:86-110 | the elements with a given key in a concatenation are those of the first part followed by those of the second |
| Lifecycle.Begin | frontend/src/hooks/useSignal.ts:17-19 | starting a request sets loading and clears result and error |
| Lifecycle.Settle | frontend/src/hooks/useSignal.ts:20-26 | a settled request is not loading. Success sets the result and leaves the error; failure sets the error and leaves the result |
| Lifecycle.RunSettles | frontend/src/hooks/useBuyHold.ts:10-22 | a whole run ends not loading with exactly one of result and error set |
| Session.Run | frontend/src/hooks/useOptimizer.ts:12-58 | `run` aborts the previously stored controller, if any, and stores the new one. It sets loading and clears error, result and progress |
| Session.Cancel | frontend/src/hooks/useOptimizer.ts:60-64 | `cancel` aborts the stored controller and stops loading and progress. Result, error and the stored controller stay |
| Session.OnFrame | frontend/src/hooks/useOptimizer.ts:41-55 | a progress frame only records progress. A result or error frame records itself, stops loading and clears progress, and leaves the other outcome as it was |
| Session.ProgressKeepsSessionRunning | frontend/src/hooks/useOptimizer.ts:42-44 | a run of progress frames changes nothing but the progress, which ends at the last frame's |
| Session.ConsumeAppend | frontend/src/hooks/useOptimizer.ts:41-55 | consuming two stream segments is consuming them one after the other |
| Session.StreamSettlesSession | frontend/src/hooks/useOptimizer.ts:12-58 | a run fed a well-formed stream ends not loading, without progress, and with exactly the terminal frame's result or error |
| Session.CancelTwice | frontend/src/hooks/useOptimizer.ts:60-64 | a second cancel changes nothing but aborting the same controller again |
| Session.LateFrameAfterCancelApplies | frontend/src/hooks/useOptimizer.ts:41-64 | a result or error frame arriving after `cancel` is still applied: the hook has no stale-event guard |
| Tab.HandleRunResets | frontend/src/components/tabs/OptimizerTab.tsx:43-61 | after `handleRun` the session is loading afresh, and the sweep request with an all-integer MA grid is followed by the buy-and-hold request. Selection, chart, drill result and overlay are cleared; drill loading and drill error are kept |
| Tab.OnSessionFrame | frontend/src/components/tabs/OptimizerTab.tsx:36-41 | a result frame selects the best tuple; other frames leave the selection |
| Tab.OnBuyHold | frontend/src/components/tabs/OptimizerTab.tsx:58-60 | the overlay request's result or error text is recorded |
| Tab.ToggleOpenRowCloses | frontend/src/components/tabs/OptimizerTab.tsx:65-76 | toggling the open row closes the chart without a request |
| Tab.ToggleBestReusesCachedResult | frontend/src/components/tabs/OptimizerTab.tsx:78-92 | toggling the best tuple shows the sweep's cached best result without a request |
| Tab.ToggleOtherRowRequestsOnePoint | frontend/src/components/tabs/OptimizerTab.tsx:78-110 | toggling another row starts a one-point sweep at that tuple, shows loading and leaves the session alone |
| Tab.ToggleTwiceCloses | frontend/src/components/tabs/OptimizerTab.tsx:63-92 | toggling a row twice from closed ends with no chart open and no second request |
| Tab.OnDrillFrame | frontend/src/components/tabs/OptimizerTab.tsx:112-122 | drill progress is ignored. A result shows its best backtest and an error records `String(new Error(msg))`; either stops loading |
| Tab.DrillSettles | frontend/src/components/tabs/OptimizerTab.tsx:95-122 | a network drill-down ends not loading, with the best backtest or the text "Error: msg". The session's error is untouched |
| Tab.LateDrillResultShowsUnderOpenRow | frontend/src/components/tabs/OptimizerTab.tsx:94-122 | a late drill result from an earlier row is shown under the row that is open now |
| Tab.ProgressPctInRange | frontend/src/components/tabs/OptimizerTab.tsx:125 | with `0 <= current <= total` and a positive total the percentage is in 0..100: 0 at the start, 100 at the end |
| Chart.ByDateLastWins | frontend/src/components/EquityCurveChart.tsx:62 | the date map holds exactly the curve's dates, each with its last point's value |
| Chart.ChartData | frontend/src/components/EquityCurveChart.tsx:64-68 | one point per strategy point, in order, with the overlay value looked up by date |
| Chart.ChartDataAlignsByDate | frontend/src/components/EquityCurveChart.tsx:62-68 | a point has an overlay value iff the overlay has its date, and then it is the last such value. Every point's date is a strategy date |
| Chart.Markers | frontend/src/components/EquityCurveChart.tsx:71-79 | markers are for trade dates only, and each carries the positive strategy value at its date |
| Chart.MarkersComplete | frontend/src/components/EquityCurveChart.tsx:73-79 | every trade date with a positive strategy value gets a marker. The marker list is empty iff no date has one |
| Chart.MarkersOfSortedDatesAreSorted | frontend/src/components/EquityCurveChart.tsx:73-79 | markers of increasing dates are increasing |
| Chart.ExportCsv | frontend/src/components/EquityCurveChart.tsx:82-88 | the header is `date,strategy`, plus `,buyhold` iff the overlay is shown and a curve was given. Then one line per chart point, starting with its date and strategy value, and nothing more without the overlay column |
| Chart.CsvFollowsStrategyCurve | frontend/src/components/EquityCurveChart.tsx:82-88 | each line starts with the point's date and strategy value. Its third cell appears only with the overlay column, and is empty where the overlay has no value |
| SettingsStore.Merge | frontend/src/hooks/useSettings.ts:18 | each field is the patch's when it has one and the base's otherwise |
| SettingsStore.LoadExample | frontend/src/hooks/useSettings.ts:7-24 | a stored record with only a theme loads that theme over the defaults |
| SettingsStore.LoadWithoutRecord | frontend/src/hooks/useSettings.ts:14-24 | a missing, empty or unparseable record loads the defaults |
| SettingsStore.UpdateLaws | frontend/src/hooks/useSettings.ts:34-36 | the empty patch is the identity, a patch is idempotent, and two patches compose into one where the later wins |
| SettingsStore.Mount | frontend/src/hooks/useSettings.ts:27-32 | mounting loads the settings, persists them and applies their theme |
| SettingsStore.PersistedTracksSettings | frontend/src/hooks/useSettings.ts:29-36 | after any updates the persisted record equals the current settings, and the applied theme is theirs |
| SettingsStore.ReloadRestores | frontend/src/hooks/useSettings.ts:14-24 | loading a persisted record whose parse recovers every field restores the saved settings |
| Strategy.RunGuarantees | backend/strategy_base.py:39-83 | one position per row, each 0 or 1 when the start is 0 or 1. Buy and sell rows are strictly increasing, disjoint and alternate, starting with a sell when invested. A position changes exactly at a buy or sell row: a sell iff invested before and 0 after, a buy iff not invested before and 1 after |
| Strategy.RunPrefixInvariant | backend/strategy_base.py:58-81 | every prefix of the loop satisfies the loop invariant: shape, bounds, the sold flag, balance and per-row explanation |
| Strategy.BuyFlagMeansEarlierSell | backend/strategy_base.py:59-71 | the `was_sold` flag is set iff some sell has happened |
| Strategy.RunPrefixIsPrefix | backend/strategy_base.py:64-81 | the loop over fewer rows computes a prefix of the positions over more rows |
| Strategy.BuysFiredRule | backend/strategy_base.py:74-79 | every buy row is one where the buy rule fired with the current `was_sold` flag |
| Strategy.BuyOnlyAfterSell | backend/strategy_base.py:74-79 | with a buy rule that refuses without an earlier sell, every buy follows some sell |
| Strategy.SellsPersist | backend/strategy_base.py:72 | sell rows recorded by a prefix remain recorded later |
| Strategy.CashStartNeverTrades | backend/strategy_base.py:58-81 | started not invested, with such a buy rule, the loop never trades and every position is the start value |
| Strategy.BuyHoldRun | backend/strategy_buyhold.py:20-29 | buy-and-hold gives all-ones positions and no trades, whatever the start |
| Strategy.IdleLoop | backend/strategy_buyhold.py:12-18 | with rules that never fire, the shared loop keeps the start value and records nothing |
| Strategy.BuyHoldMatchesLoopStartedInvested | backend/strategy_buyhold.py:12-29 | the override agrees with the shared loop run from invested; from cash that loop would stay all zeros |
| Sphy.EvaluateSell | code/strategy_sphy.py:33-46 | a sell needs at least one of spread, chg4, ret3 present |
| Sphy.SellMonotone | code/strategy_sphy.py:42-46 | loosening any threshold keeps every sell a sell |
| Sphy.PeakOf | code/strategy_sphy.py:87-88 | the NaN-skipping maximum is NaN iff all values are NaN, and is otherwise a present value bounding all the others |
| Sphy.WindowPeak | code/strategy_sphy.py:77-88 | the peak over the window rows is the largest present spread there |
| Sphy.BuyConditions | code/strategy_sphy.py:51-94 | a buy fires iff: a sell happened; MA is present; close > MA; there are at least 3 rows so far; the last two spread deltas are present and negative; the window peak and the spread are present; and the spread is at most peak × (1 − DROP) |
| Sphy.SphyBuysFollowSells | code/strategy_sphy.py:60-62 | in an SPHY run every buy follows a sell, and a run started in cash never trades |
| Product.Pairs | code/optimizer_sphy.py:71-77 | the product of two sequences has the product of their lengths |
| Product.PairsAt | code/optimizer_sphy.py:71-77 | pair `(i, j)` sits at `i*|ys| + j`, the last sequence varying fastest |
| Product.PairsCovers | code/optimizer_sphy.py:71-77 | every index of the product is some `i*|ys| + j` |
| Product.PairsMembership | code/optimizer_sphy.py:71-77 | a pair is in the product iff each component is in its sequence |
| Product.Enumerate | code/optimizer_sphy.py:71-77 | the five-way product has the product of the grid sizes as length |
| Product.EnumerateMembership | code/optimizer_sphy.py:71-77 | a tuple is enumerated iff each field is in its grid |
| Product.EnumerateOrder | code/optimizer_sphy.py:71-77 | the tuple of grid positions `(a, b, c, d, e)` sits at its mixed-radix index, SPREAD_LVL fastest |
| Optimizer.FirstFailing | code/optimizer_sphy.py:71-96 | the first tuple whose backtest raises: every earlier backtest succeeds, and none is found iff all succeed |
| Optimizer.Rows | code/optimizer_sphy.py:71-110 | the loop fails iff some enumerated tuple's backtest raises, with the first such error. Otherwise there is one row per tuple, in order, carrying the tuple (MA truncated by `int`) and its backtest's APY |
| Optimizer.ArgMax | code/optimizer_sphy.py:113 | `idxmax` returns the position of a maximal APY, the first one on ties |
| Optimizer.SweepFailures | code/optimizer_sphy.py:71-145 | the sweep fails iff some grid is empty (KeyError `'MA'`), some enumerated tuple's backtest raises (the first such error), or the re-run of the best parameters raises |
| Optimizer.SweepFailsOnEmptyGridOrRaise | code/optimizer_sphy.py:71-145 | with a whole-number MA grid, the sweep fails iff some grid is empty or some enumerated tuple's backtest raises |
| Optimizer.SweepPicksFirstBest | code/optimizer_sphy.py:113-121 | the best row has maximal APY and is the first such row. Its whole-number MA is the best parameters' |
| Optimizer.BestResultHasMaximalApy | code/optimizer_sphy.py:113-145 | with an integral MA grid, the best parameters are an enumerated tuple whose APY is maximal, and the returned backtest is their successful re-run |
| Optimizer.EffectiveGridsEnumerate | code/optimizer_sphy.py:38-42 | the grids in effect enumerate five tuples that differ only in RET3, in grid order |
| Optimizer.SingletonSweep | code/optimizer_sphy.py:71-121 | a one-point sweep has one row and succeeds when the point's backtests succeed. With a whole MA it fails iff the point's backtest raises, and its best parameters are the point |
| Api.SafeFloat | api/main.py:72-80 | None, NaN and unconvertible values become None; other values pass through |
| Api.SafeFloatProjection | api/main.py:72-80 | applying it twice changes nothing, and it is the identity exactly on None and finite floats |
| Api.Events | api/main.py:86-108 | one event per date, in order, built from that date's row |
| Api.BuildTradeHistory | api/main.py:83-111 | the history is a permutation of the sell events followed by the buy events, with dates non-increasing |
| Api.TradeHistoryEvents | api/main.py:83-111 | the history has one event per trade date, and an event is in it iff it is the sell or buy event of such a date |
| Api.TradeHistorySameDateOrder | api/main.py:110 | on one date, sells come before buys, each in their input order: the sort is stable |
| Api.BuildBacktestResult | api/main.py:114-131 | one equity point per row, carrying its date and strategy value. Trade dates, final value and APY pass through, and the trade history is built from the dates, reading rows of the same frame |
| Api.RowOnFindsRow | api/main.py:86-99 | on a frame with one row per date, `loc` of a row's date is that row |
| Api.BacktestHistoryReadsFrame | api/main.py:83-131 | an event on a frame row's date is in the result's history iff that date is a trade date of its kind, and it then carries that row's close and indicator cells |
| Api.SignalCases | api/main.py:179-192 | BUY iff the last two positions are 0 then 1, SELL iff 1 then 0, HOLD with fewer than two |
| Api.SignalReportsLastTrade | api/main.py:174-192 | over at least two rows from a 0/1 start, BUY iff the last row bought and SELL iff it sold |
| Api.DatesAt | api/main.py:174 | the trade rows map to their dates, in order |
| Api.RunSignal | api/main.py:157-217 | the endpoint fails iff the frame is empty |
| Api.BacktesterFrame | code/backtester.py:53-67 | the backtester's frame is the indicator frame row for row, with the strategy equity added; it fails iff the frame is empty |
| Api.RunSignalHistoryReadsFrame | api/main.py:174-209 | the signal history has an event on row k's date iff the run sold (SELL) or bought (BUY) at row k, carrying that row's close and indicator cells |
| Api.DatesAtFindsRow | api/main.py:174 | on a frame with one row per date, row k's date is a trade date iff k is a trade row |
| Api.BoundedTrades | api/main.py:174 | the trade rows of a run lie within its rows |
| Api.SignalIgnoresCashRate | api/main.py:176-217 | the response does not depend on the request's cash rate. APY and final value come from the backtest at 0.04, the signal from the run's positions, and the metrics' date from the last row |
| Api.EventStream | api/main.py:259-312 | the stream is well formed: progress frames, then exactly one terminal result or error |
| Api.EventStreamForwards | api/main.py:259-312 | items are forwarded in order up to and including the first result or error. Without one, the stream ends with "Optimizer timed out" |
| Api.FirstTerminal | api/main.py:265-312 | the first non-progress item sits at the returned position, and everything before it is progress |
| Api.WorkerStreamSettlesSession | api/main.py:230-312 | when the worker's items arrive in time, the client reads one progress frame per report and then the worker's outcome. A session run on that stream settles on it |

## Left out

- I/O is not modelled: HTTP, local storage, file export and CSV/API data loading are left out. Storage reads and JSON parsing become parameters (`raw`, `parse`).
- Thread-pool concurrency and `asyncio` are left out. The 300-second `wait_for` timeout is modelled as the queue's item sequence running out.
- Binary floating point is not modelled: numbers are exact reals, `toFixed` rounds half away from zero on the exact value, and infinities are not represented. A zero total in `progressPct` is modelled as "no finite percentage".
- Grid.RangeToArray: requires a non-zero step or `max <= min`. A zero step with `max > min` makes the source loop run forever.
- `IndicatorEngine.apply_all` and `WeeklyDataLoader.load` are parameters, not models. The MA column is computed upstream, and a row carries it.
- What `Backtester.run` computes is a parameter (`backtest`): the strategy equity, the final value and the APY (code/backtester.py:61-72), which need floating-point powers and products. Its output frame and its empty-frame failure (code/backtester.py:53-59) are modelled by `Api.BacktesterFrame`.
- The API builds `SPHYOptimizer` with `param_grids` and a progress callback, but code/optimizer_sphy.py has fixed grids and no such arguments. api/main.py:13-22 puts `backend/` first on `sys.path`, so the API imports an `optimizer_sphy` module other than code/optimizer_sphy.py, and that module is not part of this model. `Optimizer.Sweep` takes the grids as a parameter. `Optimizer.Run` uses the fixed grids in effect at lines 38-42 of code/optimizer_sphy.py. The per-row `final_value` the API reads is not produced by code/optimizer_sphy.py and is not modelled.
- Optimizer.SweepFailures: the empty-grid failure is at line 110 (`results_df["MA"]` on an empty frame raises KeyError `'MA'`), not at `idxmax`. A raising backtest is modelled by the `backtest` parameter returning a failure, for example the `IndexError` an empty loaded frame raises at code/backtester.py:59. Failures of `WeeklyDataLoader.load` before the loop are not modelled.
- Converting a result item into an `OptimizerResponse` (lines 276-305 of api/main.py) is not modelled. A `QResult` item already carries the response.
- The client library (`lib/api`: `streamOptimizer`, `runSignal`, `runBuyHold`) is not part of this model. A frame is what its callbacks deliver, and an abort does not stop later callbacks.
- Session.OnFrame, Tab.OnDrillFrame: the hooks have no stale-event guard, so frames arriving after `cancel`, a new `run` or a row switch still apply. This is stated, not prevented. Tab.OnDrillFrame also keeps the raw message when an error frame arrives after the drill promise has already settled, since then only `setDrillError(msg)` runs (frontend/src/components/tabs/OptimizerTab.tsx:114). That needs two terminal frames, which Api.EventStream never produces.
- A drill-down promise that never settles (the stream never calling back) is not modelled: `Tab.DrillSettles` assumes a terminal frame.
- Dates are integer day numbers. ISO `strftime` text preserves their order and equality, and formatting is left out.
- Api.BuildTradeHistory: `float(row["close"])` of a NaN close is a NaN price. The price is a plain real here.
- Api.RunSignal, Api.BacktesterFrame: an empty frame fails inside `Backtester.run`, where `out["pos"].iloc[0]` raises `IndexError` (code/backtester.py:59). The failure carries that message; the exception type and the HTTP error it becomes are not modelled.
- Api.RowOn: a trade date missing from the frame would be a `KeyError` in pandas, and a frame with two rows on one date makes `float(row["close"])` fail. Trade dates always come from the frame, and the frames are weekly with one row per date, so neither case is modelled; the lookup results are stated for frames with distinct dates.
- Strategy.RunGuarantees: states 0/1 positions only for a start of 0 or 1. `int(start_invested)` of another value is kept as is, as in the source.
- Rendering, themes (`applyTheme` is recorded, not modelled), the header, metrics card, signal badge and the `/api/config` routes are left out.

=== FILE: api.dfy ===
/** The API's result assembly: `_safe_float`, the trade history, the backtest
    result record, the signal endpoint's derivation, and the frame sequence of
    the optimizer stream. */
module Api {
  import opened Wrappers
  import opened Types
  import Sorting
  import Strategy
  import Sphy
  import Session

  /** A Python float: finite, or NaN.  Infinities are not modelled. */
  datatype Float = Finite(x: real) | NaN

  /** A cell as `row.get(...)` returns it: `None` for a missing column, a value
      `float()` accepts, or one it rejects with `TypeError`/`ValueError`. */
  datatype PyValue = NoneValue | FloatLike(f: Float) | NotConvertible

  /** `_safe_float`: `None` for None, NaN and unconvertible input, else the number. */
  function SafeFloat(v: PyValue): (r: Option<real>)
    ensures v.NoneValue? || v.NotConvertible? ==> r.None?
    ensures v.FloatLike? && v.f.NaN? ==> r.None?
    ensures v.FloatLike? && v.f.Finite? ==> r == Some(v.f.x)
  {
    match v
    case NoneValue => None
    case NotConvertible => None
    case FloatLike(f) => if f.NaN? then None else Some(f.x)
  }

  /** How a JSON number or null goes back into a cell. */
  function Cell(x: Option<real>): PyValue {
    if x.None? then NoneValue else FloatLike(Finite(x.value))
  }

  /** `_safe_float` is a projection: applied to its own output, seen as a
      cell, it changes nothing, and it loses exactly the NaN/None/unconvertible
      distinction. */
  lemma SafeFloatProjection(v: PyValue)
    ensures SafeFloat(Cell(SafeFloat(v))) == SafeFloat(v)
    ensures Cell(SafeFloat(v)) == v <==> v.NoneValue? || (v.FloatLike? && v.f.Finite?)
  {
  }

  /** One row of the backtester's frame, as the trade history and equity
      curve read it. */
  datatype BtRow = BtRow(date: Date, close: real, spread: PyValue, chg4: PyValue, ret3: PyValue,
                         spreadDelta: PyValue, strategy: real)

  /** The trade event for the row at date `d` (`bt_df.loc[d]`). */
  function EventAt(d: Date, a: Action, rowAt: Date -> BtRow): TradeEvent {
    var row := rowAt(d);
    TradeEvent(d, a, row.close, SafeFloat(row.spread), SafeFloat(row.chg4), SafeFloat(row.ret3),
               SafeFloat(row.spreadDelta))
  }

  function Events(dates: seq<Date>, a: Action, rowAt: Date -> BtRow): (es: seq<TradeEvent>)
    ensures |es| == |dates| && forall i :: 0 <= i < |dates| ==> es[i] == EventAt(dates[i], a, rowAt)
  {
    seq(|dates|, i requires 0 <= i < |dates| => EventAt(dates[i], a, rowAt))
  }

  /** `sort(key=date, reverse=True)` is a stable sort on the negated date. */
  function DateKey(e: TradeEvent): real { -(e.date as real) }

  /** The events of `es` dated `d`, in their order in `es`. */
  function OnDate(es: seq<TradeEvent>, d: Date): seq<TradeEvent> {
    Sorting.WithKey(es, DateKey, -(d as real))
  }

  /** `_build_trade_history`: the sell events, then the buy events, sorted by
      date, newest first. */
  function BuildTradeHistory(rowAt: Date -> BtRow, buyDates: seq<Date>, sellDates: seq<Date>): (h: seq<TradeEvent>)
    ensures multiset(h) == multiset(Events(sellDates, Sell, rowAt) + Events(buyDates, Buy, rowAt))
    ensures forall i, j :: 0 <= i < j < |h| ==> h[i].date >= h[j].date
  {
    Sorting.SortBy(Events(sellDates, Sell, rowAt) + Events(buyDates, Buy, rowAt), DateKey)
  }

  /** Every sell date gives a "SELL" event, every buy date a "BUY" event, and
      there are no others. */
  lemma TradeHistoryEvents(rowAt: Date -> BtRow, buyDates: seq<Date>, sellDates: seq<Date>, e: TradeEvent)
    ensures |BuildTradeHistory(rowAt, buyDates, sellDates)| == |sellDates| + |buyDates|
    ensures e in BuildTradeHistory(rowAt, buyDates, sellDates) <==>
              (e.action == Sell && e.date in sellDates && e == EventAt(e.date, Sell, rowAt))
              || (e.action == Buy && e.date in buyDates && e == EventAt(e.date, Buy, rowAt))
  {
    var sells := Events(sellDates, Sell, rowAt);
    var buys := Events(buyDates, Buy, rowAt);
    var h := BuildTradeHistory(rowAt, buyDates, sellDates);
    assert |multiset(h)| == |multiset(sells + buys)|;
    assert e in h <==> e in multiset(h);
    assert e in sells + buys <==> e in multiset(sells + buys);
    if e in sells {
      var i :| 0 <= i < |sells| && sells[i] == e;
      assert sellDates[i] == e.date;
    }
    if e in buys {
      var i :| 0 <= i < |buys| && buys[i] == e;
      assert buyDates[i] == e.date;
    }
    if e.action == Sell && e.date in sellDates && e == EventAt(e.date, Sell, rowAt) {
      var i :| 0 <= i < |sellDates| && sellDates[i] == e.date;
      assert sells[i] == e;
    }
    if e.action == Buy && e.date in buyDates && e == EventAt(e.date, Buy, rowAt) {
      var i :| 0 <= i < |buyDates| && buyDates[i] == e.date;
      assert buys[i] == e;
    }
  }

  /** Python's sort is stable, so on any one date the history lists that
      date's sells (in sell order) before its buys (in buy order). */
  lemma TradeHistorySameDateOrder(rowAt: Date -> BtRow, buyDates: seq<Date>, sellDates: seq<Date>, d: Date)
    ensures OnDate(BuildTradeHistory(rowAt, buyDates, sellDates), d)
            == OnDate(Events(sellDates, Sell, rowAt), d) + OnDate(Events(buyDates, Buy, rowAt), d)
  {
    var sells := Events(sellDates, Sell, rowAt);
    var buys := Events(buyDates, Buy, rowAt);
    Sorting.WithKeyConcat(sells, buys, DateKey, -(d as real));
  }

  /** `bt_df.loc[d]`: the first row of the frame dated `d`.  pandas raises
      `KeyError` for a date the frame lacks; the trade dates are always dates
      of the frame, so the blank row given then is never read. */
  function RowOn(frame: seq<BtRow>, d: Date): BtRow
    decreases |frame|
  {
    if |frame| == 0 then BtRow(d, 0.0, NoneValue, NoneValue, NoneValue, NoneValue, 0.0)
    else if frame[0].date == d then frame[0]
    else RowOn(frame[1..], d)
  }

  /** The frame's rows by date. */
  function Loc(frame: seq<BtRow>): Date -> BtRow {
    d => RowOn(frame, d)
  }

  /** The frame is indexed by week, one row per date. */
  predicate DistinctDates(frame: seq<BtRow>) {
    forall i, j :: 0 <= i < j < |frame| ==> frame[i].date != frame[j].date
  }

  /** On a frame with one row per date, looking a row's date up gives that row. */
  lemma {:induction false} RowOnFindsRow(frame: seq<BtRow>, k: int)
    requires DistinctDates(frame) && 0 <= k < |frame|
    ensures Loc(frame)(frame[k].date) == frame[k]
    decreases |frame|
  {
    if k > 0 {
      assert frame[0].date != frame[k].date;
      var rest := frame[1..];
      assert rest[k - 1] == frame[k];
      RowOnFindsRow(rest, k - 1);
    }
  }

  /** `_build_backtest_result`: one equity point per frame row, the date lists
      as given, and the trade history read from the same frame. */
  function BuildBacktestResult(df: seq<BtRow>, buyDates: seq<Date>, sellDates: seq<Date>,
                               finalValue: real, apy: real): (r: BacktestResult)
    ensures |r.equityCurve| == |df|
    ensures forall i :: 0 <= i < |df| ==> r.equityCurve[i] == EquityPoint(df[i].date, df[i].strategy)
    ensures r.buyDates == buyDates && r.sellDates == sellDates
    ensures r.tradeHistory == BuildTradeHistory(Loc(df), buyDates, sellDates)
    ensures r.finalValue == finalValue && r.apy == apy
  {
    var curve := seq(|df|, i requires 0 <= i < |df| => EquityPoint(df[i].date, df[i].strategy));
    BacktestResult(curve, buyDates, sellDates, BuildTradeHistory(Loc(df), buyDates, sellDates), finalValue, apy)
  }

  /** On a frame with one row per date, the history of a backtest result holds
      an event on a frame row's date exactly when that date is a trade date of
      the event's kind, and the event then carries that row's close and
      indicator cells. */
  lemma BacktestHistoryReadsFrame(df: seq<BtRow>, buyDates: seq<Date>, sellDates: seq<Date>,
                                  finalValue: real, apy: real, e: TradeEvent, k: int)
    requires DistinctDates(df) && 0 <= k < |df| && e.date == df[k].date
    ensures e in BuildBacktestResult(df, buyDates, sellDates, finalValue, apy).tradeHistory <==>
              ((e.action == Sell && e.date in sellDates) || (e.action == Buy && e.date in buyDates))
              && e == TradeEvent(df[k].date, e.action, df[k].close, SafeFloat(df[k].spread), SafeFloat(df[k].chg4),
                                 SafeFloat(df[k].ret3), SafeFloat(df[k].spreadDelta))
  {
    RowOnFindsRow(df, k);
    TradeHistoryEvents(Loc(df), buyDates, sellDates, e);
  }

  datatype Signal = BuySignal | SellSignal | HoldSignal

  /** The signal from the last two positions; with fewer than two, the last
      (or 0) stands for both, which always gives HOLD. */
  function DeriveSignal(positions: seq<int>): Signal {
    var n := |positions|;
    var prev := if n >= 2 then positions[n - 2] else if n > 0 then positions[n - 1] else 0;
    var last := if n >= 2 then positions[n - 1] else prev;
    if last == 1 && prev == 0 then BuySignal
    else if last == 0 && prev == 1 then SellSignal
    else HoldSignal
  }

  /** BUY exactly on a final 0 -> 1 step, SELL exactly on a final 1 -> 0 step. */
  lemma SignalCases(positions: seq<int>)
    ensures var n := |positions|;
            && (DeriveSignal(positions) == BuySignal <==> n >= 2 && positions[n - 2] == 0 && positions[n - 1] == 1)
            && (DeriveSignal(positions) == SellSignal <==> n >= 2 && positions[n - 2] == 1 && positions[n - 1] == 0)
            && (n < 2 ==> DeriveSignal(positions) == HoldSignal)
  {
  }

  /** On a run of the position loop from 0 or 1 over at least two rows, the
      signal is BUY exactly when the last row bought and SELL exactly when it
      sold. */
  lemma SignalReportsLastTrade(n: nat, start: int, sell: Strategy.SellRule, buy: Strategy.BuyRule)
    requires n >= 2 && (start == 0 || start == 1)
    ensures var r := Strategy.Run(n, start, sell, buy);
            && (DeriveSignal(r.positions) == BuySignal <==> n - 1 in r.buys)
            && (DeriveSignal(r.positions) == SellSignal <==> n - 1 in r.sells)
  {
    Strategy.RunPrefixTradeRows(n, start, sell, buy);
    Strategy.RunPrefixOtherRows(n, start, sell, buy);
    var s := Strategy.RunPrefix(n, start, sell, buy);
    assert Strategy.SellRow(s, start, n - 1) && Strategy.BuyRow(s, start, n - 1);
    assert Strategy.RowValue(s, start, n - 2);
    assert Strategy.Before(s.positions, start, n - 1) == s.positions[n - 2];
    SignalCases(s.positions);
  }

  /** A row of the indicator frame the signal endpoint reads. */
  datatype IndRow = IndRow(date: Date, close: real, ma: PyValue, spread: PyValue, chg4: PyValue,
                           ret3: PyValue, spreadDelta: PyValue)

  /** The row as the SPHY rules see it: NaN and missing cells are `None`. */
  function RulesView(row: IndRow): Sphy.SphyRow {
    Sphy.SphyRow(Some(row.close), SafeFloat(row.ma), SafeFloat(row.spread), SafeFloat(row.chg4),
                 SafeFloat(row.ret3), SafeFloat(row.spreadDelta))
  }

  datatype SignalRequest = SignalRequest(params: StrategyParams, startInvested: int, cashRate: real)

  /** What the backtester computes for a run: the strategy's equity after each
      week (its `Strategy` column), the final value and the APY. */
  datatype BacktestRun = BacktestRun(equity: nat -> real, finalValue: real, apy: real)

  /** `Backtester.run`'s frame: a copy of the indicator frame with the
      `Strategy` column added.  Filling the shifted positions reads the first
      position with `iloc[0]`, which fails on an empty frame. */
  function BacktesterFrame(df: seq<IndRow>, equity: nat -> real): (r: Result<seq<BtRow>>)
    ensures r.Failure? <==> |df| == 0
    ensures r.Success? ==> |r.value| == |df| && forall i :: 0 <= i < |df| ==>
              r.value[i] == BtRow(df[i].date, df[i].close, df[i].spread, df[i].chg4, df[i].ret3,
                                  df[i].spreadDelta, equity(i))
  {
    if |df| == 0 then Failure("single positional indexer is out-of-bounds")
    else
      Success(seq(|df|, i requires 0 <= i < |df| =>
        BtRow(df[i].date, df[i].close, df[i].spread, df[i].chg4, df[i].ret3, df[i].spreadDelta, equity(i))))
  }

  datatype SignalMetrics = SignalMetrics(spread: Option<real>, ma: Option<real>, ret3: Option<real>,
                                         chg4: Option<real>, spreadDelta: Option<real>, lastDate: Date, close: real)

  datatype SignalResponse = SignalResponse(signal: Signal, metrics: SignalMetrics, tradeHistory: seq<TradeEvent>,
                                           apy: real, finalValue: real)

  /** The frame's dates at the given row positions. */
  function DatesAt(df: seq<IndRow>, rows: seq<nat>): (ds: seq<Date>)
    requires forall k :: 0 <= k < |rows| ==> rows[k] < |df|
    ensures |ds| == |rows| && forall k :: 0 <= k < |rows| ==> ds[k] == df[rows[k]].date
  {
    seq(|rows|, k requires 0 <= k < |rows| => df[rows[k]].date)
  }

  /** `run_signal`: the SPHY run over the frame, backtested at the fixed cash
      rate 0.04 whatever the request says.  An empty frame fails inside the
      backtester; otherwise the trade history is read from the backtester's
      frame. */
  function RunSignal(req: SignalRequest, df: seq<IndRow>, backtest: (real, Strategy.RunResult) -> BacktestRun): (r: Result<SignalResponse>)
    ensures r.Failure? <==> |df| == 0
  {
    var view := seq(|df|, i requires 0 <= i < |df| => RulesView(df[i]));
    var run := Sphy.Run(view, req.params, req.startInvested);
    var bt := backtest(0.04, run);
    match BacktesterFrame(df, bt.equity)
    case Failure(msg) => Failure(msg)
    case Success(frame) =>
      Strategy.RunGuarantees(|df|, req.startInvested, Sphy.SellRule(view, req.params), Sphy.BuyRule(view, req.params));
      BoundedTrades(|df|, req.startInvested, Sphy.SellRule(view, req.params), Sphy.BuyRule(view, req.params));
      var last := df[|df| - 1];
      var metrics := SignalMetrics(SafeFloat(last.spread), SafeFloat(last.ma), SafeFloat(last.ret3),
                                   SafeFloat(last.chg4), SafeFloat(last.spreadDelta), last.date, last.close);
      var history := BuildTradeHistory(Loc(frame), DatesAt(df, run.buys), DatesAt(df, run.sells));
      Success(SignalResponse(DeriveSignal(run.positions), metrics, history, bt.apy, bt.finalValue))
  }

  /** On an indicator frame with one row per date, the signal endpoint's
      history holds an event on row `k`'s date exactly when the run sold (for a
      "SELL") or bought (for a "BUY") at row `k`, and the event then carries
      that row's close and indicator cells. */
  lemma RunSignalHistoryReadsFrame(req: SignalRequest, df: seq<IndRow>, backtest: (real, Strategy.RunResult) -> BacktestRun,
                                   e: TradeEvent, k: int)
    requires forall i, j :: 0 <= i < j < |df| ==> df[i].date != df[j].date
    requires 0 <= k < |df| && e.date == df[k].date
    ensures var view := seq(|df|, i requires 0 <= i < |df| => RulesView(df[i]));
            var run := Sphy.Run(view, req.params, req.startInvested);
            e in RunSignal(req, df, backtest).value.tradeHistory <==>
              ((e.action == Sell && k in run.sells) || (e.action == Buy && k in run.buys))
              && e == TradeEvent(df[k].date, e.action, df[k].close, SafeFloat(df[k].spread), SafeFloat(df[k].chg4),
                                 SafeFloat(df[k].ret3), SafeFloat(df[k].spreadDelta))
  {
    var view := seq(|df|, i requires 0 <= i < |df| => RulesView(df[i]));
    var run := Sphy.Run(view, req.params, req.startInvested);
    var sell := Sphy.SellRule(view, req.params);
    var buy := Sphy.BuyRule(view, req.params);
    assert run == Strategy.Run(|df|, req.startInvested, sell, buy);
    BoundedTrades(|df|, req.startInvested, sell, buy);
    var frame := BacktesterFrame(df, backtest(0.04, run).equity).value;
    assert DistinctDates(frame) by {
      forall i, j | 0 <= i < j < |frame| ensures frame[i].date != frame[j].date {
        assert frame[i].date == df[i].date && frame[j].date == df[j].date;
      }
    }
    RowOnFindsRow(frame, k);
    var buyDates := DatesAt(df, run.buys);
    var sellDates := DatesAt(df, run.sells);
    TradeHistoryEvents(Loc(frame), buyDates, sellDates, e);
    DatesAtFindsRow(df, run.sells, k);
    DatesAtFindsRow(df, run.buys, k);
  }

  /** On a frame with one row per date, row `k`'s date is among the dates at
      `rows` exactly when `k` is among `rows`. */
  lemma DatesAtFindsRow(df: seq<IndRow>, rows: seq<nat>, k: int)
    requires forall i, j :: 0 <= i < j < |df| ==> df[i].date != df[j].date
    requires forall m :: 0 <= m < |rows| ==> rows[m] < |df|
    requires 0 <= k < |df|
    ensures df[k].date in DatesAt(df, rows) <==> k in rows
  {
    var ds := DatesAt(df, rows);
    if k in rows {
      var m :| 0 <= m < |rows| && rows[m] == k;
      assert ds[m] == df[k].date;
    }
    if df[k].date in ds {
      var m :| 0 <= m < |ds| && ds[m] == df[k].date;
      assert df[rows[m]].date == df[k].date;
    }
  }

  /** The trade rows of a run lie within its rows. */
  lemma BoundedTrades(n: nat, start: int, sell: Strategy.SellRule, buy: Strategy.BuyRule)
    ensures forall k :: 0 <= k < |Strategy.Run(n, start, sell, buy).buys| ==> Strategy.Run(n, start, sell, buy).buys[k] < n
    ensures forall k :: 0 <= k < |Strategy.Run(n, start, sell, buy).sells| ==> Strategy.Run(n, start, sell, buy).sells[k] < n
  {
    Strategy.RunPrefixInvariant(n, start, sell, buy);
  }

  /** The response's numbers come from the backtest at 0.04, so the request's
      cash rate has no effect on it; the signal is derived from the run's
      positions and the metrics from the last row. */
  lemma SignalIgnoresCashRate(req: SignalRequest, df: seq<IndRow>, backtest: (real, Strategy.RunResult) -> BacktestRun, c: real)
    requires |df| > 0
    ensures RunSignal(req, df, backtest) == RunSignal(req.(cashRate := c), df, backtest)
    ensures var view := seq(|df|, i requires 0 <= i < |df| => RulesView(df[i]));
            var run := Sphy.Run(view, req.params, req.startInvested);
            var out := RunSignal(req, df, backtest).value;
            && out.apy == backtest(0.04, run).apy
            && out.finalValue == backtest(0.04, run).finalValue
            && out.signal == DeriveSignal(run.positions)
            && out.metrics.lastDate == df[|df| - 1].date
  {
  }

  /** What the worker thread puts on the queue. */
  datatype QueueItem = QProgress(current: int, total: int) | QResult(response: OptimizerResponse) | QError(message: string)

  const TimeoutMessage: string := "Optimizer timed out"

  /** `event_stream` over the items that arrive before any 300-second wait
      runs out: progress items are forwarded, the first result or error is
      forwarded and ends the stream, and running out of items is the timeout. */
  function EventStream(items: seq<QueueItem>): (frames: seq<Frame>)
    ensures Session.WellFormed(frames)
    ensures |frames| <= |items| + 1
    decreases |items|
  {
    if items == [] then [ErrorFrame(TimeoutMessage)]
    else match items[0]
      case QProgress(c, t) => [ProgressFrame(c, t)] + EventStream(items[1..])
      case QResult(resp) => [ResultFrame(resp)]
      case QError(msg) => [ErrorFrame(msg)]
  }

  /** The frame a queue item becomes. */
  function FrameOf(item: QueueItem): Frame {
    match item
    case QProgress(c, t) => ProgressFrame(c, t)
    case QResult(resp) => ResultFrame(resp)
    case QError(msg) => ErrorFrame(msg)
  }

  /** With a result or error among the items, the stream is the items up to
      and including the first of them. */
  lemma {:induction false} EventStreamUpToTerminal(items: seq<QueueItem>)
    requires exists k :: 0 <= k < |items| && !items[k].QProgress?
    ensures var k := FirstTerminal(items);
            EventStream(items) == seq(k + 1, i requires 0 <= i <= k => FrameOf(items[i]))
    decreases |items|
  {
    if items[0].QProgress? {
      var rest := items[1..];
      var k :| 0 <= k < |items| && !items[k].QProgress?;
      assert !rest[k - 1].QProgress?;
      EventStreamUpToTerminal(rest);
      var m := FirstTerminal(rest);
      var tail := seq(m + 1, i requires 0 <= i <= m => FrameOf(rest[i]));
      assert EventStream(items) == [FrameOf(items[0])] + tail;
      assert FirstTerminal(items) == m + 1;
      var whole := seq(m + 2, i requires 0 <= i <= m + 1 => FrameOf(items[i]));
      forall i | 0 <= i < m + 2 ensures ([FrameOf(items[0])] + tail)[i] == whole[i] {
        if i > 0 {
          assert rest[i - 1] == items[i];
        }
      }
    }
  }

  /** With progress items only, every one is forwarded and the wait then runs out. */
  lemma {:induction false} EventStreamTimesOut(items: seq<QueueItem>)
    requires forall k :: 0 <= k < |items| ==> items[k].QProgress?
    ensures EventStream(items) == seq(|items|, i requires 0 <= i < |items| => FrameOf(items[i])) + [ErrorFrame(TimeoutMessage)]
    decreases |items|
  {
    if items != [] {
      var rest := items[1..];
      assert forall k :: 0 <= k < |rest| ==> rest[k] == items[k + 1];
      EventStreamTimesOut(rest);
      var tail := seq(|rest|, i requires 0 <= i < |rest| => FrameOf(rest[i]));
      var whole := seq(|items|, i requires 0 <= i < |items| => FrameOf(items[i]));
      assert EventStream(items) == [FrameOf(items[0])] + (tail + [ErrorFrame(TimeoutMessage)]);
      assert [FrameOf(items[0])] + tail == whole;
    }
  }

  /** The stream forwards the items in order up to and including the first
      result or error, and stops there; without one it ends with the timeout. */
  lemma EventStreamForwards(items: seq<QueueItem>)
    ensures var frames := EventStream(items);
            (exists k :: 0 <= k < |items| && !items[k].QProgress?)
              ==> (var k := FirstTerminal(items);
                   frames == seq(k + 1, i requires 0 <= i <= k => FrameOf(items[i])))
    ensures var frames := EventStream(items);
            (forall k :: 0 <= k < |items| ==> items[k].QProgress?)
              ==> frames == seq(|items|, i requires 0 <= i < |items| => FrameOf(items[i])) + [ErrorFrame(TimeoutMessage)]
  {
    if exists k :: 0 <= k < |items| && !items[k].QProgress? {
      EventStreamUpToTerminal(items);
    } else {
      EventStreamTimesOut(items);
    }
  }

  /** Position of the first result or error item. */
  function FirstTerminal(items: seq<QueueItem>): (k: nat)
    requires exists k :: 0 <= k < |items| && !items[k].QProgress?
    ensures k < |items| && !items[k].QProgress?
    ensures forall i :: 0 <= i < k ==> items[i].QProgress?
    decreases |items|
  {
    if !items[0].QProgress? then 0
    else
      var k :| 0 <= k < |items| && !items[k].QProgress?;
      assert !items[1..][k - 1].QProgress?;
      1 + FirstTerminal(items[1..])
  }

  /** The worker's items: its progress reports, then its result or its error. */
  function WorkerItems(progress: seq<(int, int)>, outcome: Result<OptimizerResponse>): seq<QueueItem> {
    seq(|progress|, i requires 0 <= i < |progress| => QProgress(progress[i].0, progress[i].1))
    + [if outcome.Success? then QResult(outcome.value) else QError(outcome.message)]
  }

  /** When the worker's items all arrive in time, the client reads one progress
      frame per report and then the worker's own result or error text; the
      session that started the run then settles on it. */
  lemma WorkerStreamSettlesSession(progress: seq<(int, int)>, outcome: Result<OptimizerResponse>,
                                   s: Session.State, c: Session.ControllerId)
    ensures var frames := EventStream(WorkerItems(progress, outcome));
            && |frames| == |progress| + 1
            && (forall i :: 0 <= i < |progress| ==> frames[i] == ProgressFrame(progress[i].0, progress[i].1))
    ensures var t := Session.Consume(Session.Run(s, c), EventStream(WorkerItems(progress, outcome)));
            && !t.loading
            && (outcome.Success? ==> t.result == Some(outcome.value) && t.error.None?)
            && (outcome.Failure? ==> t.error == Some(outcome.message) && t.result.None?)
  {
    var items := WorkerItems(progress, outcome);
    var n := |progress|;
    assert !items[n].QProgress?;
    EventStreamForwards(items);
    assert FirstTerminal(items) == n;
    var frames := EventStream(items);
    Session.StreamSettlesSession(s, c, frames);
  }
}

=== FILE: chart.dfy ===
/** The equity-curve chart's data preparation: the strategy curve merged with
    the optional buy-and-hold curve by date, the buy and sell markers placed on
    the strategy line, and the text rows of the CSV export. */
module Chart {
  import opened Wrappers
  import opened Types

  /** One point of the merged chart data. */
  datatype ChartPoint = ChartPoint(date: Date, strategy: real, buyhold: Option<real>)

  /** A buy or sell marker on the strategy line. */
  datatype Marker = Marker(date: Date, value: real)

  /** `new Map(curve.map(p => [p.date, p.strategy]))`: entries are set in order,
      so a later point overwrites an earlier one with the same date. */
  function ByDate(curve: seq<EquityPoint>): map<Date, real>
    decreases |curve|
  {
    if curve == [] then map[]
    else ByDate(curve[..|curve| - 1])[curve[|curve| - 1].date := curve[|curve| - 1].strategy]
  }

  /** The map knows exactly the curve's dates, and for each date it holds the
      value of the last point carrying it. */
  lemma {:induction false} ByDateLastWins(curve: seq<EquityPoint>, d: Date)
    ensures d in ByDate(curve) <==> exists i :: 0 <= i < |curve| && curve[i].date == d
    ensures forall i :: 0 <= i < |curve| && curve[i].date == d
                        && (forall j :: i < j < |curve| ==> curve[j].date != d)
                        ==> d in ByDate(curve) && ByDate(curve)[d] == curve[i].strategy
    decreases |curve|
  {
    if curve != [] {
      var n := |curve| - 1;
      var init := curve[..n];
      ByDateLastWins(init, d);
      if curve[n].date != d {
        forall i | 0 <= i < |curve| && curve[i].date == d
          ensures i < n && init[i].date == d
        {
        }
        forall i | 0 <= i < |init| && init[i].date == d
          ensures curve[i].date == d
        {
        }
      }
    }
  }

  /** `Map.get`: the value stored for `d`, if any. */
  function Lookup(curve: seq<EquityPoint>, d: Date): Option<real> {
    var m := ByDate(curve);
    if d in m then Some(m[d]) else None
  }

  /** `chartData`: one point per strategy point, in order, carrying the
      buy-and-hold value at the same date when the overlay curve has one. */
  function ChartData(equity: seq<EquityPoint>, buyhold: Option<seq<EquityPoint>>): (data: seq<ChartPoint>)
    ensures |data| == |equity|
    ensures forall i :: 0 <= i < |data| ==>
              data[i].date == equity[i].date && data[i].strategy == equity[i].strategy
    ensures forall i :: 0 <= i < |data| ==> data[i].buyhold == Lookup(buyhold.GetOr([]), equity[i].date)
  {
    seq(|equity|, i requires 0 <= i < |equity| =>
      ChartPoint(equity[i].date, equity[i].strategy, Lookup(buyhold.GetOr([]), equity[i].date)))
  }

  /** The overlay value at a point is present exactly when the buy-and-hold
      curve has the point's date, and is then that curve's last value there;
      buy-and-hold dates missing from the strategy curve produce no point. */
  lemma ChartDataAlignsByDate(equity: seq<EquityPoint>, buyhold: seq<EquityPoint>, i: int)
    requires 0 <= i < |equity|
    ensures var p := ChartData(equity, Some(buyhold))[i];
            && (p.buyhold.Some? <==> exists j :: 0 <= j < |buyhold| && buyhold[j].date == equity[i].date)
            && (forall j :: 0 <= j < |buyhold| && buyhold[j].date == equity[i].date
                            && (forall k :: j < k < |buyhold| ==> buyhold[k].date != equity[i].date)
                            ==> p.buyhold == Some(buyhold[j].strategy))
    ensures forall k :: 0 <= k < |ChartData(equity, Some(buyhold))| ==>
              exists j :: 0 <= j < |equity| && ChartData(equity, Some(buyhold))[k].date == equity[j].date
  {
    ByDateLastWins(buyhold, equity[i].date);
    var data := ChartData(equity, Some(buyhold));
    forall k | 0 <= k < |data|
      ensures exists j :: 0 <= j < |equity| && data[k].date == equity[j].date
    {
      assert data[k].date == equity[k].date;
    }
  }

  /** `buyMarkers` / `sellMarkers`: each date paired with the strategy value at
      that date (0 when the curve lacks it), keeping only positive values. */
  function Markers(dates: seq<Date>, equity: seq<EquityPoint>): (ms: seq<Marker>)
    ensures |ms| <= |dates|
    ensures forall k :: 0 <= k < |ms| ==> ms[k].date in dates
    ensures forall k :: 0 <= k < |ms| ==> ms[k].value > 0.0 && Lookup(equity, ms[k].date) == Some(ms[k].value)
    decreases |dates|
  {
    if dates == [] then []
    else
      var m := Marker(dates[0], Lookup(equity, dates[0]).GetOr(0.0));
      var rest := Markers(dates[1..], equity);
      if m.value > 0.0 then [m] + rest else rest
  }

  /** Every date whose strategy value exists and is positive gets a marker, and
      the list is empty exactly when no date has a positive value. */
  lemma {:induction false} MarkersComplete(dates: seq<Date>, equity: seq<EquityPoint>)
    ensures forall i :: 0 <= i < |dates| && Lookup(equity, dates[i]).Some? && Lookup(equity, dates[i]).value > 0.0
              ==> Marker(dates[i], Lookup(equity, dates[i]).value) in Markers(dates, equity)
    ensures Markers(dates, equity) == [] <==>
              forall i :: 0 <= i < |dates| ==> Lookup(equity, dates[i]).None? || Lookup(equity, dates[i]).value <= 0.0
    decreases |dates|
  {
    if dates != [] {
      MarkersComplete(dates[1..], equity);
      forall i | 1 <= i < |dates|
        ensures dates[i] == dates[1..][i - 1]
      {
      }
    }
  }

  /** On strictly increasing dates, the markers come out strictly increasing
      by date as well. */
  lemma MarkersOfSortedDatesAreSorted(dates: seq<Date>, equity: seq<EquityPoint>)
    requires forall i, j :: 0 <= i < j < |dates| ==> dates[i] < dates[j]
    ensures forall i, j :: 0 <= i < j < |Markers(dates, equity)| ==>
              Markers(dates, equity)[i].date < Markers(dates, equity)[j].date
    decreases |dates|
  {
    if dates != [] {
      MarkersOfSortedDatesAreSorted(dates[1..], equity);
      var rest := Markers(dates[1..], equity);
      forall k | 0 <= k < |rest|
        ensures dates[0] < rest[k].date
      {
        assert rest[k].date in dates[1..];
      }
    }
  }

  /** The CSV header: the buy-and-hold column is there only when the overlay
      is switched on and a buy-and-hold curve was given. */
  function CsvHeader(withBuyHold: bool): string {
    "date,strategy" + (if withBuyHold then ",buyhold" else "")
  }

  /** One CSV line; a missing overlay value leaves the last cell empty.  The
      number and date texts come from the formatters. */
  function CsvRow(p: ChartPoint, withBuyHold: bool, showDate: Date -> string, showNum: real -> string): string {
    showDate(p.date) + "," + showNum(p.strategy)
    + (if withBuyHold then "," + (if p.buyhold.Some? then showNum(p.buyhold.value) else "") else "")
  }

  /** `exportCsv`'s lines, before joining with newlines. */
  function ExportCsv(data: seq<ChartPoint>, showBuyHold: bool, hasBuyHoldCurve: bool,
                     showDate: Date -> string, showNum: real -> string): (rows: seq<string>)
    ensures |rows| == |data| + 1
    ensures rows[0] == if showBuyHold && hasBuyHoldCurve then "date,strategy,buyhold" else "date,strategy"
    ensures forall i :: 0 <= i < |data| ==>
              var lead := showDate(data[i].date) + "," + showNum(data[i].strategy);
              && |lead| <= |rows[i + 1]| && rows[i + 1][..|lead|] == lead
              && (!(showBuyHold && hasBuyHoldCurve) ==> rows[i + 1] == lead)
  {
    var with := showBuyHold && hasBuyHoldCurve;
    [CsvHeader(with)] + seq(|data|, i requires 0 <= i < |data| => CsvRow(data[i], with, showDate, showNum))
  }

  /** Line `i + 1` of the export is the CSV line of point `i`. */
  lemma ExportCsvLine(data: seq<ChartPoint>, showBuyHold: bool, hasBuyHoldCurve: bool,
                      showDate: Date -> string, showNum: real -> string, i: int)
    requires 0 <= i < |data|
    ensures ExportCsv(data, showBuyHold, hasBuyHoldCurve, showDate, showNum)[i + 1]
            == CsvRow(data[i], showBuyHold && hasBuyHoldCurve, showDate, showNum)
  {
  }

  /** Exported from the merged data, the CSV has one line per strategy point
      after the header; each line starts with that point's date and strategy
      value, and has a third cell only with the overlay column, empty where the
      overlay has no value at that date. */
  lemma CsvFollowsStrategyCurve(equity: seq<EquityPoint>, buyhold: Option<seq<EquityPoint>>,
                                showBuyHold: bool, showDate: Date -> string, showNum: real -> string, i: int)
    requires 0 <= i < |equity|
    ensures var rows := ExportCsv(ChartData(equity, buyhold), showBuyHold, buyhold.Some?, showDate, showNum);
            var lead := showDate(equity[i].date) + "," + showNum(equity[i].strategy);
            && |rows| == |equity| + 1
            && lead <= rows[i + 1]
            && (!(showBuyHold && buyhold.Some?) ==> rows[i + 1] == lead)
            && (showBuyHold && buyhold.Some? && Lookup(buyhold.value, equity[i].date).None? ==> rows[i + 1] == lead + ",")
  {
    var data := ChartData(equity, buyhold);
    var rows := ExportCsv(data, showBuyHold, buyhold.Some?, showDate, showNum);
    var lead := showDate(equity[i].date) + "," + showNum(equity[i].strategy);
    ExportCsvLine(data, showBuyHold, buyhold.Some?, showDate, showNum, i);
    var tail := rows[i + 1][|lead|..];
    assert rows[i + 1] == lead + tail;
  }
}

=== FILE: grid.dfy ===
/** The parameter panel's range editing and the expansion of a
    `{min, max, step}` range into the list of candidate values a sweep
    evaluates (`rangeToArray`). */
module Grid {
  import opened Numeric
  import opened Types

  /** The number of decimals `rangeToArray` keeps when its caller gives none. */
  const DefaultDecimals: nat := 6

  /** The ranges on which the expansion loop terminates.  With a zero step and
      `max > min` the loop bound `round((max - min) / 0)` is +Infinity; with a
      zero step otherwise it is NaN or -Infinity and the loop body never runs. */
  predicate Terminates(r: ParamRange) {
    r.step != 0.0 || r.max <= r.min
  }

  /** The loop bound `Math.round((max - min) / step)`.  For a zero step the
      bound is NaN or -Infinity, which no index reaches; -1 stands for it. */
  function LastIndex(r: ParamRange): int
    requires Terminates(r)
  {
    if r.step == 0.0 then -1 else JsRound((r.max - r.min) / r.step)
  }

  /** The number of values the loop produces. */
  function Count(r: ParamRange): nat
    requires Terminates(r)
  {
    if LastIndex(r) < 0 then 0 else LastIndex(r) + 1
  }

  /** The unrounded value at loop index `i`: `min + i * step`. */
  function Progression(r: ParamRange, i: nat): real {
    r.min + i as real * r.step
  }

  /** The value pushed at loop index `i`: `min + i * step` at `decimals` decimals. */
  function Point(r: ParamRange, i: nat, decimals: nat): real {
    ToFixed(Progression(r, i), decimals)
  }

  /** The expanded range as a sequence (the value `rangeToArray` returns). */
  function Expand(r: ParamRange, decimals: nat): (values: seq<real>)
    requires Terminates(r)
  {
    seq(Count(r), i requires 0 <= i < Count(r) => Point(r, i, decimals))
  }

  /** `rangeToArray`: the loop of the source, pushing one rounded value per index
      from 0 to the rounded step count inclusive. */
  method RangeToArray(r: ParamRange, decimals: nat) returns (values: seq<real>)
    requires Terminates(r)
    ensures LastIndex(r) >= 0 ==> |values| == LastIndex(r) + 1
    ensures LastIndex(r) < 0 ==> values == []
    ensures forall i :: 0 <= i < |values| ==> values[i] == ToFixed(Progression(r, i), decimals)
    ensures values == Expand(r, decimals)
  {
    values := [];
    var steps := LastIndex(r);
    var i := 0;
    while i <= steps
      invariant 0 <= i <= Count(r)
      invariant |values| == i
      invariant forall k :: 0 <= k < i ==> values[k] == Point(r, k, decimals)
    {
      values := values + [Point(r, i, decimals)];
      i := i + 1;
    }
  }

  /** A non-empty expansion starts at `min` rounded to `decimals`, which is
      `min` itself when `min` has no more decimals than that. */
  lemma ExpandStartsAtMin(r: ParamRange, decimals: nat)
    requires Terminates(r) && LastIndex(r) >= 0
    ensures |Expand(r, decimals)| >= 1
    ensures Expand(r, decimals)[0] == ToFixed(r.min, decimals)
    ensures HasDecimals(r.min, decimals) ==> Expand(r, decimals)[0] == r.min
  {
    assert Expand(r, decimals)[0] == ToFixed(Progression(r, 0), decimals);
    assert Progression(r, 0) == r.min;
    if HasDecimals(r.min, decimals) {
      ToFixedKeepsExactDecimals(r.min, decimals);
    }
  }

  /** A range with `min == max` and a non-zero step expands to the one value `min`. */
  lemma ExpandSingleton(r: ParamRange, decimals: nat)
    requires r.min == r.max && r.step != 0.0
    ensures Expand(r, decimals) == [ToFixed(r.min, decimals)]
    ensures HasDecimals(r.min, decimals) ==> Expand(r, decimals) == [r.min]
  {
    assert (r.max - r.min) / r.step == 0.0;
    assert LastIndex(r) == 0;
    ExpandStartsAtMin(r, decimals);
  }

  /** `{50, 55, 5}` with no decimals expands to `[50, 55]`. */
  lemma ExpandExample()
    ensures Expand(ParamRange(50.0, 55.0, 5.0), 0) == [50.0, 55.0]
  {
    var r := ParamRange(50.0, 55.0, 5.0);
    FloorIs((55.0 - 50.0) / 5.0 + 1.0 / 2.0, 1);
    assert LastIndex(r) == 1;
    var e := Expand(r, 0);
    assert |e| == 2;
    assert HasDecimals(50.0, 0) && HasDecimals(55.0, 0) by {
      assert Unit(0) == 1.0;
    }
    ToFixedKeepsExactDecimals(50.0, 0);
    ToFixedKeepsExactDecimals(55.0, 0);
    assert Progression(r, 0) == 50.0 && Progression(r, 1) == 55.0;
    assert e[0] == ToFixed(Progression(r, 0), 0);
    assert e[1] == ToFixed(Progression(r, 1), 0);
  }

  /** Every value lies within half a unit of the `decimals`-th place of the
      arithmetic progression `min + i * step`. */
  lemma ExpandTracksProgression(r: ParamRange, decimals: nat)
    requires Terminates(r)
    ensures forall i :: 0 <= i < |Expand(r, decimals)| ==>
              -1.0 / (2.0 * Unit(decimals)) <= Expand(r, decimals)[i] - Progression(r, i)
              <= 1.0 / (2.0 * Unit(decimals))
  {
    var e := Expand(r, decimals);
    forall i | 0 <= i < |e|
      ensures -1.0 / (2.0 * Unit(decimals)) <= e[i] - Progression(r, i) <= 1.0 / (2.0 * Unit(decimals))
    {
      ToFixedError(Progression(r, i), decimals);
    }
  }

  lemma PointMonotone(r: ParamRange, i: nat, j: nat, decimals: nat)
    requires r.step > 0.0 && i <= j
    ensures Point(r, i, decimals) <= Point(r, j, decimals)
  {
    MulMonotone(i as real, j as real, r.step);
    ToFixedMonotone(Progression(r, i), Progression(r, j), decimals);
  }

  /** With a positive step the expansion never decreases. */
  lemma ExpandNonDecreasing(r: ParamRange, decimals: nat)
    requires r.step > 0.0
    ensures forall i, j :: 0 <= i <= j < |Expand(r, decimals)| ==>
              Expand(r, decimals)[i] <= Expand(r, decimals)[j]
  {
    var e := Expand(r, decimals);
    forall i, j | 0 <= i <= j < |e|
      ensures e[i] <= e[j]
    {
      PointMonotone(r, i, j, decimals);
    }
  }

  /** The last unrounded value is within half a step of `max`. */
  lemma ExpandEndsNearMax(r: ParamRange)
    requires r.step > 0.0 && LastIndex(r) >= 0
    ensures -r.step / 2.0 < Progression(r, LastIndex(r)) - r.max <= r.step / 2.0
  {
    var q := (r.max - r.min) / r.step;
    var n := LastIndex(r) as real;
    assert q - 1.0 / 2.0 < n <= q + 1.0 / 2.0;
    assert q * r.step == r.max - r.min;
    MulMonotone(n, q + 1.0 / 2.0, r.step);
    MulStrict(q - 1.0 / 2.0, n, r.step);
  }

  lemma MulStrict(a: real, b: real, u: real)
    requires a < b && u > 0.0
    ensures a * u < b * u
  {
  }

  /** `parseFloat(val) || 0`: an unparseable entry (NaN) becomes 0. */
  function CoerceNumber(parsed: Wrappers.Option<real>): real {
    parsed.GetOr(0.0)
  }

  function FieldOf(r: ParamRange, f: RangeField): real {
    match f
    case Min => r.min
    case Max => r.max
    case Step => r.step
  }

  function WithField(r: ParamRange, f: RangeField, v: real): ParamRange {
    match f
    case Min => r.(min := v)
    case Max => r.(max := v)
    case Step => r.(step := v)
  }

  function RangeOf(rs: ParamRanges, p: ParamName): ParamRange {
    match p
    case Ma => rs.MA
    case Drop => rs.DROP
    case Chg4 => rs.CHG4
    case Ret3 => rs.RET3
    case SpreadLvl => rs.SPREAD_LVL
  }

  function WithRange(rs: ParamRanges, p: ParamName, r: ParamRange): ParamRanges {
    match p
    case Ma => rs.(MA := r)
    case Drop => rs.(DROP := r)
    case Chg4 => rs.(CHG4 := r)
    case Ret3 => rs.(RET3 := r)
    case SpreadLvl => rs.(SPREAD_LVL := r)
  }

  /** `RangeForm.setField`: replace one field of one parameter's range with the
      typed number (0 when it does not parse); every other field of every
      parameter keeps its value. */
  function SetField(rs: ParamRanges, p: ParamName, f: RangeField, parsed: Wrappers.Option<real>): (rs': ParamRanges)
    ensures FieldOf(RangeOf(rs', p), f) == CoerceNumber(parsed)
    ensures parsed.None? ==> FieldOf(RangeOf(rs', p), f) == 0.0
    ensures forall q, g :: (q, g) != (p, f) ==> FieldOf(RangeOf(rs', q), g) == FieldOf(RangeOf(rs, q), g)
  {
    WithRange(rs, p, WithField(RangeOf(rs, p), f, CoerceNumber(parsed)))
  }

  /** `handleRun`'s MA grid: the range expanded with no decimals, then passed
      through `Math.round`. */
  function MaGrid(r: ParamRange): seq<real>
    requires Terminates(r)
  {
    var e := Expand(r, 0);
    seq(|e|, i requires 0 <= i < |e| => JsRound(e[i]) as real)
  }

  /** The MA grid holds whole numbers only, and the extra `Math.round` changes
      nothing because the zero-decimal expansion is already whole. */
  lemma MaGridIsWholeExpansion(r: ParamRange)
    requires Terminates(r)
    ensures MaGrid(r) == Expand(r, 0)
    ensures forall i :: 0 <= i < |MaGrid(r)| ==> IsIntegral(MaGrid(r)[i])
  {
    var e := Expand(r, 0);
    forall i | 0 <= i < |e|
      ensures JsRound(e[i]) as real == e[i]
    {
      ToFixedZeroIsIntegral(Progression(r, i));
      JsRoundOfIntegral(e[i]);
    }
  }

  predicate RangesTerminate(rs: ParamRanges) {
    Terminates(rs.MA) && Terminates(rs.DROP) && Terminates(rs.CHG4)
    && Terminates(rs.RET3) && Terminates(rs.SPREAD_LVL)
  }

  /** The five grids `handleRun` submits: MA at whole numbers, the others at
      the default six decimals. */
  function BuildGrids(rs: ParamRanges): (g: Grids)
    requires RangesTerminate(rs)
  {
    Grids(MaGrid(rs.MA), Expand(rs.DROP, DefaultDecimals), Expand(rs.CHG4, DefaultDecimals),
          Expand(rs.RET3, DefaultDecimals), Expand(rs.SPREAD_LVL, DefaultDecimals))
  }

  /** The submitted grids have the expansion's sizes and an all-integer MA grid. */
  lemma BuildGridsShape(rs: ParamRanges)
    requires RangesTerminate(rs)
    ensures |BuildGrids(rs).MA| == Count(rs.MA) && |BuildGrids(rs).DROP| == Count(rs.DROP)
    ensures |BuildGrids(rs).CHG4| == Count(rs.CHG4) && |BuildGrids(rs).RET3| == Count(rs.RET3)
    ensures |BuildGrids(rs).SPREAD_LVL| == Count(rs.SPREAD_LVL)
    ensures forall i :: 0 <= i < |BuildGrids(rs).MA| ==> IsIntegral(BuildGrids(rs).MA[i])
  {
    MaGridIsWholeExpansion(rs.MA);
  }
}

=== FILE: lifecycle.dfy ===
/** The loading/result/error lifecycle shared by the signal hook and the
    buy-and-hold hook: `run` clears the record and marks it loading, awaits
    one request, then records the data or the error text and stops loading. */
module Lifecycle {
  import opened Wrappers

  /** How an awaited request settled: its data, or the rejection converted to
      text with `String(err)`. */
  datatype Outcome<T> = Resolved(data: T) | Rejected(text: string)

  datatype RequestState<T> = RequestState(result: Option<T>, loading: bool, error: Option<string>)

  /** The hook's state before any run. */
  function Idle<T>(): RequestState<T> {
    RequestState(None, false, None)
  }

  /** The synchronous part of `run`: loading, with no result and no error. */
  function Begin<T>(s: RequestState<T>): (s': RequestState<T>)
    ensures s'.loading && s'.result.None? && s'.error.None?
  {
    RequestState(None, true, None)
  }

  /** The `try`/`catch`/`finally` after the await. */
  function Settle<T>(s: RequestState<T>, o: Outcome<T>): (s': RequestState<T>)
    ensures !s'.loading
    ensures o.Resolved? ==> s'.result == Some(o.data) && s'.error == s.error
    ensures o.Rejected? ==> s'.error == Some(o.text) && s'.result == s.result
  {
    match o
    case Resolved(d) => s.(result := Some(d), loading := false)
    case Rejected(t) => s.(error := Some(t), loading := false)
  }

  /** A whole run ends not loading with exactly one of result and error set:
      the data on success, the error text on failure; whatever the previous
      run left behind is gone. */
  lemma RunSettles<T>(s: RequestState<T>, o: Outcome<T>)
    ensures !Settle(Begin(s), o).loading
    ensures o.Resolved? ==> Settle(Begin(s), o) == RequestState(Some(o.data), false, None)
    ensures o.Rejected? ==> Settle(Begin(s), o) == RequestState(None, false, Some(o.text))
    ensures Settle(Begin(s), o).result.Some? != Settle(Begin(s), o).error.Some?
  {
  }
}

=== FILE: numeric.dfy ===
/** The numeric conversions the client and the server apply to real numbers:
    JavaScript `Math.round`, `Number.prototype.toFixed` followed by
    `parseFloat`, and Python `int()` on a float.  Values are exact reals; the
    binary floating-point representation is not modelled. */
module Numeric {

  /** 10^d as a natural number. */
  function Pow10(d: nat): (p: nat)
    ensures p >= 1
  {
    if d == 0 then 1 else 10 * Pow10(d - 1)
  }

  /** The size of one unit in the d-th decimal place, inverted: 10^d as a real. */
  function Unit(d: nat): (u: real)
    ensures u >= 1.0
  {
    Pow10(d) as real
  }

  /** True when `x` is a whole number. */
  predicate IsIntegral(x: real) {
    x.Floor as real == x
  }

  /** True when `x` has at most `d` digits after the decimal point. */
  predicate HasDecimals(x: real, d: nat) {
    (x * Unit(d)).Floor as real == x * Unit(d)
  }

  /** JavaScript `Math.round`: nearest integer, halves rounded towards +infinity. */
  function JsRound(x: real): (n: int)
    ensures x - 1.0 / 2.0 < n as real <= x + 1.0 / 2.0
  {
    (x + 1.0 / 2.0).Floor
  }

  /** The magnitude `m`, scaled by `u`, rounded half-up to a whole number. */
  function RoundScaled(m: real, u: real): int {
    (m * u + 1.0 / 2.0).Floor
  }

  /** `parseFloat(x.toFixed(d))`: `toFixed` takes the magnitude, picks the
      nearest multiple of 10^-d (the larger one on a tie) and restores the sign. */
  function ToFixed(x: real, d: nat): real {
    var u := Unit(d);
    if x < 0.0 then -(RoundScaled(-x, u) as real / u) else RoundScaled(x, u) as real / u
  }

  /** Python `int()` on a float: truncation towards zero, so the result keeps
      the sign and lies less than 1 from `x`, on the side of zero. */
  function PyInt(x: real): (n: int)
    ensures 0.0 <= x ==> 0 <= n && n as real <= x < n as real + 1.0
    ensures x < 0.0 ==> n <= 0 && n as real - 1.0 < x <= n as real
  {
    if x >= 0.0 then x.Floor else -((-x).Floor)
  }

  /** The floor of `a` is the unique integer `k` with `k <= a < k + 1`. */
  lemma FloorIs(a: real, k: int)
    requires k as real <= a < k as real + 1.0
    ensures a.Floor == k
  {
  }

  lemma PyIntOfIntegral(x: real)
    requires IsIntegral(x)
    ensures PyInt(x) as real == x
  {
    var k := x.Floor;
    if x < 0.0 {
      FloorIs(-x, -k);
    }
  }

  lemma JsRoundOfIntegral(x: real)
    requires IsIntegral(x)
    ensures JsRound(x) as real == x
  {
    FloorIs(x + 1.0 / 2.0, x.Floor);
  }

  lemma RoundScaledExact(m: real, u: real, k: int)
    requires u >= 1.0 && m * u == k as real
    ensures RoundScaled(m, u) as real / u == m
  {
    FloorIs(m * u + 1.0 / 2.0, k);
  }

  /** A value already at `d` decimals is returned unchanged by `ToFixed`. */
  lemma ToFixedKeepsExactDecimals(x: real, d: nat)
    requires HasDecimals(x, d)
    ensures ToFixed(x, d) == x
  {
    var k := (x * Unit(d)).Floor;
    if x < 0.0 {
      assert (-x) * Unit(d) == (-k) as real;
      RoundScaledExact(-x, Unit(d), -k);
    } else {
      RoundScaledExact(x, Unit(d), k);
    }
  }

  /** With no decimals, `ToFixed` always yields a whole number. */
  lemma ToFixedZeroIsIntegral(x: real)
    ensures IsIntegral(ToFixed(x, 0))
  {
    assert Unit(0) == 1.0;
    if x < 0.0 {
      assert ToFixed(x, 0) == (-RoundScaled(-x, 1.0)) as real;
    } else {
      assert ToFixed(x, 0) == RoundScaled(x, 1.0) as real;
    }
  }

  lemma RoundScaledError(m: real, u: real)
    requires u >= 1.0
    ensures -1.0 / (2.0 * u) <= RoundScaled(m, u) as real / u - m <= 1.0 / (2.0 * u)
  {
    var mu := m * u;
    var n := RoundScaled(m, u) as real;
    assert mu - 1.0 / 2.0 < n <= mu + 1.0 / 2.0;
    DivBounds(n - mu, u);
    DivSplit(n, m, u);
  }

  /** `ToFixed` moves its argument by at most half a unit in the last place. */
  lemma ToFixedError(x: real, d: nat)
    ensures -1.0 / (2.0 * Unit(d)) <= ToFixed(x, d) - x <= 1.0 / (2.0 * Unit(d))
  {
    if x < 0.0 {
      RoundScaledError(-x, Unit(d));
    } else {
      RoundScaledError(x, Unit(d));
    }
  }

  lemma DivSplit(n: real, m: real, u: real)
    requires u > 0.0
    ensures n / u - m == (n - m * u) / u
  {
  }

  lemma DivBounds(e: real, u: real)
    requires u >= 1.0
    requires -1.0 / 2.0 < e <= 1.0 / 2.0
    ensures -1.0 / (2.0 * u) <= e / u <= 1.0 / (2.0 * u)
  {
    assert e / u * (2.0 * u) == 2.0 * e;
    assert 1.0 / (2.0 * u) * (2.0 * u) == 1.0;
  }

  lemma RoundScaledMonotone(a: real, b: real, u: real)
    requires a <= b && u >= 1.0
    ensures RoundScaled(a, u) <= RoundScaled(b, u)
  {
    MulMonotone(a, b, u);
  }

  lemma RoundScaledNonNegative(a: real, u: real)
    requires a >= 0.0 && u >= 1.0
    ensures RoundScaled(a, u) >= 0
  {
  }

  /** `ToFixed` never reverses the order of two values. */
  lemma ToFixedMonotone(x: real, y: real, d: nat)
    requires x <= y
    ensures ToFixed(x, d) <= ToFixed(y, d)
  {
    var u := Unit(d);
    if 0.0 <= x {
      RoundScaledMonotone(x, y, u);
      DivMonotone(RoundScaled(x, u) as real, RoundScaled(y, u) as real, u);
    } else if y < 0.0 {
      RoundScaledMonotone(-y, -x, u);
      DivMonotone(RoundScaled(-y, u) as real, RoundScaled(-x, u) as real, u);
    } else {
      RoundScaledNonNegative(-x, u);
      RoundScaledNonNegative(y, u);
      DivMonotone(0.0, RoundScaled(-x, u) as real, u);
      DivMonotone(0.0, RoundScaled(y, u) as real, u);
    }
  }

  lemma DivSelf(x: real)
    requires x != 0.0
    ensures x / x == 1.0
  {
  }

  lemma MulMonotone(a: real, b: real, u: real)
    requires a <= b && u > 0.0
    ensures a * u <= b * u
  {
  }

  lemma DivMonotone(a: real, b: real, u: real)
    requires a <= b && u > 0.0
    ensures a / u <= b / u
  {
    assert b / u - a / u == (b - a) / u;
  }
}

=== FILE: optimizer.dfy ===
/** The SPHY grid search: one backtest per tuple of the Cartesian product of
    the five grids, a results table, and the first row with the highest APY
    re-run as the best result.  The backtest (indicators, strategy loop and
    compounding over the loaded weekly data) is a deterministic function
    parameter that either succeeds or raises; the first raise ends the
    sweep. */
module Optimizer {
  import opened Wrappers
  import opened Numeric
  import opened Types
  import Product
  import Tab

  /** One row of `results_df` after `MA` is converted with `int`. */
  datatype SweepRow = SweepRow(MA: int, DROP: real, CHG4: real, RET3: real, SPREAD_LVL: real, APY: real)

  /** What `run` returns: `best_params`, `results_df` and `best_result`. */
  datatype SweepOutcome<R> = SweepOutcome(bestParams: StrategyParams, rows: seq<SweepRow>, bestResult: R)

  /** The grids the constructor leaves in force: its second assignment
      replaces the first. */
  const EffectiveGrids: Grids :=
    Grids([50.0], [0.017], [0.165], [-0.02, -0.0205, -0.021, -0.0215, -0.022], [7.0])

  /** The position of the first tuple whose backtest raises, if any. */
  function FirstFailing<R>(ts: seq<StrategyParams>, backtest: StrategyParams -> Result<R>): (k: Option<nat>)
    ensures k.Some? ==> k.value < |ts| && backtest(ts[k.value]).Failure?
                        && forall j :: 0 <= j < k.value ==> backtest(ts[j]).Success?
    ensures k.None? ==> forall j :: 0 <= j < |ts| ==> backtest(ts[j]).Success?
    decreases |ts|
  {
    if |ts| == 0 then None
    else if backtest(ts[0]).Failure? then Some(0)
    else
      match FirstFailing(ts[1..], backtest)
      case None => None
      case Some(k) => Some(k + 1)
  }

  /** The loop over the enumerated tuples: a results row per tuple, in
      enumeration order, holding the tuple (MA truncated toward zero) and its
      backtest's APY.  The first backtest that raises ends the loop with its
      error. */
  function Rows<R>(g: Grids, backtest: StrategyParams -> Result<R>, apyOf: R -> real): (r: Result<seq<SweepRow>>)
    ensures var ts := Product.Enumerate(g);
            r.Failure? <==> exists i :: 0 <= i < |ts| && backtest(ts[i]).Failure?
    ensures var ts := Product.Enumerate(g);
            r.Failure? ==> exists i :: 0 <= i < |ts| && backtest(ts[i]).Failure? && r.message == backtest(ts[i]).message
                                       && forall j :: 0 <= j < i ==> backtest(ts[j]).Success?
    ensures var ts := Product.Enumerate(g);
            r.Success? ==> |r.value| == |ts| && forall i :: 0 <= i < |ts| ==>
              r.value[i] == SweepRow(PyInt(ts[i].MA), ts[i].DROP, ts[i].CHG4, ts[i].RET3, ts[i].SPREAD_LVL,
                                     apyOf(backtest(ts[i]).value))
  {
    var ts := Product.Enumerate(g);
    match FirstFailing(ts, backtest)
    case Some(k) => Failure(backtest(ts[k]).message)
    case None =>
      Success(seq(|ts|, i requires 0 <= i < |ts| =>
        SweepRow(PyInt(ts[i].MA), ts[i].DROP, ts[i].CHG4, ts[i].RET3, ts[i].SPREAD_LVL, apyOf(backtest(ts[i]).value))))
  }

  function Apys(rows: seq<SweepRow>): (a: seq<real>)
    ensures |a| == |rows| && forall i :: 0 <= i < |rows| ==> a[i] == rows[i].APY
  {
    seq(|rows|, i requires 0 <= i < |rows| => rows[i].APY)
  }

  /** `Series.idxmax` over positions: the first position holding the maximum. */
  function ArgMax(xs: seq<real>): (k: nat)
    requires |xs| > 0
    ensures k < |xs|
    ensures forall j :: 0 <= j < |xs| ==> xs[j] <= xs[k]
    ensures forall j :: 0 <= j < k ==> xs[j] < xs[k]
    decreases |xs|
  {
    if |xs| == 1 then 0
    else
      var k := ArgMax(xs[..|xs| - 1]);
      assert forall j :: 0 <= j < |xs| - 1 ==> xs[..|xs| - 1][j] == xs[j];
      if xs[|xs| - 1] > xs[k] then |xs| - 1 else k
  }

  /** The parameters of a results row, as `best_params` copies them. */
  function ParamsOf(row: SweepRow): StrategyParams {
    StrategyParams(row.MA as real, row.DROP, row.CHG4, row.RET3, row.SPREAD_LVL)
  }

  /** `best_params`: the parameters of the first row with the highest APY. */
  function BestParams(rows: seq<SweepRow>): StrategyParams
    requires |rows| > 0
  {
    ParamsOf(rows[ArgMax(Apys(rows))])
  }

  /** The body of `run` for the grids `g`.  A raising backtest propagates.
      With no rows the table has no `MA` column and `results_df["MA"]` raises
      `KeyError('MA')`, whose text is `'MA'`.  The best parameters are then
      backtested once more, which can raise as well. */
  function Sweep<R>(g: Grids, backtest: StrategyParams -> Result<R>, apyOf: R -> real): Result<SweepOutcome<R>> {
    match Rows(g, backtest, apyOf)
    case Failure(msg) => Failure(msg)
    case Success(rows) =>
      if |rows| == 0 then Failure("'MA'")
      else
        var bestParams := BestParams(rows);
        match backtest(bestParams)
        case Failure(msg) => Failure(msg)
        case Success(best) => Success(SweepOutcome(bestParams, rows, best))
  }

  /** `SPHYOptimizer.run`: the sweep over the effective grids. */
  function Run<R>(backtest: StrategyParams -> Result<R>, apyOf: R -> real): Result<SweepOutcome<R>> {
    Sweep(EffectiveGrids, backtest, apyOf)
  }

  predicate SomeGridEmpty(g: Grids) {
    |g.MA| == 0 || |g.DROP| == 0 || |g.CHG4| == 0 || |g.RET3| == 0 || |g.SPREAD_LVL| == 0
  }

  /** The sweep fails exactly when some grid is empty (with the KeyError
      text), when the backtest of some enumerated tuple raises (with the first
      such error), or when the re-run of the best parameters raises. */
  lemma SweepFailures<R>(g: Grids, backtest: StrategyParams -> Result<R>, apyOf: R -> real)
    ensures var ts := Product.Enumerate(g);
            var rows := Rows(g, backtest, apyOf);
            Sweep(g, backtest, apyOf).Failure? <==>
              SomeGridEmpty(g)
              || (exists i :: 0 <= i < |ts| && backtest(ts[i]).Failure?)
              || (rows.Success? && |rows.value| > 0 && backtest(BestParams(rows.value)).Failure?)
    ensures SomeGridEmpty(g) ==> Sweep(g, backtest, apyOf) == Failure("'MA'")
    ensures var ts := Product.Enumerate(g);
            !SomeGridEmpty(g) && (exists i :: 0 <= i < |ts| && backtest(ts[i]).Failure?) ==>
              exists i :: 0 <= i < |ts| && backtest(ts[i]).Failure?
                          && Sweep(g, backtest, apyOf) == Failure(backtest(ts[i]).message)
                          && forall j :: 0 <= j < i ==> backtest(ts[j]).Success?
  {
    var ts := Product.Enumerate(g);
    if SomeGridEmpty(g) {
      assert |ts| == 0;
      assert Rows(g, backtest, apyOf) == Success([]);
    } else {
      PositiveProduct(|g.MA|, |g.DROP|, |g.CHG4|, |g.RET3|, |g.SPREAD_LVL|);
      match FirstFailing(ts, backtest)
      case Some(k) =>
        assert Rows(g, backtest, apyOf) == Failure(backtest(ts[k]).message);
        assert Sweep(g, backtest, apyOf) == Failure(backtest(ts[k]).message);
      case None =>
        assert Rows(g, backtest, apyOf).Success?;
    }
  }

  /** With a whole-number MA grid the best parameters are an enumerated tuple,
      so the sweep fails exactly when some grid is empty or some enumerated
      tuple's backtest raises. */
  lemma SweepFailsOnEmptyGridOrRaise<R>(g: Grids, backtest: StrategyParams -> Result<R>, apyOf: R -> real)
    requires forall i :: 0 <= i < |g.MA| ==> IsIntegral(g.MA[i])
    ensures var ts := Product.Enumerate(g);
            Sweep(g, backtest, apyOf).Failure? <==>
              SomeGridEmpty(g) || exists i :: 0 <= i < |ts| && backtest(ts[i]).Failure?
  {
    var ts := Product.Enumerate(g);
    SweepFailures(g, backtest, apyOf);
    var rows := Rows(g, backtest, apyOf);
    if rows.Success? && |rows.value| > 0 {
      var k := ArgMax(Apys(rows.value));
      var t := ts[k];
      Product.EnumerateMembership(g, t);
      PyIntOfIntegral(t.MA);
      assert BestParams(rows.value) == t;
    }
  }

  lemma PositiveProduct(a: nat, b: nat, c: nat, d: nat, e: nat)
    requires a > 0 && b > 0 && c > 0 && d > 0 && e > 0
    ensures a * (b * (c * (d * e))) > 0
  {
  }

  /** The best row: `best_params` are the parameters of a row whose APY no
      row exceeds and that no earlier row matches, and its MA is a whole number. */
  lemma SweepPicksFirstBest<R>(g: Grids, backtest: StrategyParams -> Result<R>, apyOf: R -> real)
    requires Sweep(g, backtest, apyOf).Success?
    ensures var out := Sweep(g, backtest, apyOf).value;
            exists k :: 0 <= k < |out.rows| && out.bestParams == ParamsOf(out.rows[k])
              && (forall j :: 0 <= j < |out.rows| ==> out.rows[j].APY <= out.rows[k].APY)
              && (forall j :: 0 <= j < k ==> out.rows[j].APY < out.rows[k].APY)
    ensures IsIntegral(Sweep(g, backtest, apyOf).value.bestParams.MA)
  {
    var rows := Rows(g, backtest, apyOf).value;
    var k := ArgMax(Apys(rows));
    assert Sweep(g, backtest, apyOf).value.bestParams == ParamsOf(rows[k]);
    FloorIs(rows[k].MA as real, rows[k].MA);
  }

  /** `best_result` re-runs the backtest with `best_params`.  When every MA in
      the grid is a whole number the converted MA is the one the sweep used, so
      the best result's APY is the table's maximum. */
  lemma BestResultHasMaximalApy<R>(g: Grids, backtest: StrategyParams -> Result<R>, apyOf: R -> real)
    requires Sweep(g, backtest, apyOf).Success?
    requires forall i :: 0 <= i < |g.MA| ==> IsIntegral(g.MA[i])
    ensures var out := Sweep(g, backtest, apyOf).value;
            backtest(out.bestParams) == Success(out.bestResult)
            && out.bestParams in Product.Enumerate(g)
            && forall j :: 0 <= j < |out.rows| ==> out.rows[j].APY <= apyOf(out.bestResult)
  {
    var ts := Product.Enumerate(g);
    var rows := Rows(g, backtest, apyOf).value;
    var k := ArgMax(Apys(rows));
    var t := ts[k];
    Product.EnumerateMembership(g, t);
    PyIntOfIntegral(t.MA);
    assert ParamsOf(rows[k]) == t;
  }

  /** The effective grids give five tuples, RET3 running through its grid. */
  lemma EffectiveGridsEnumerate()
    ensures Product.Enumerate(EffectiveGrids) == seq(5, i requires 0 <= i < 5 =>
              StrategyParams(50.0, 0.017, 0.165, EffectiveGrids.RET3[i], 7.0))
  {
    var g := EffectiveGrids;
    forall i | 0 <= i < 5
      ensures Product.Enumerate(g)[i] == StrategyParams(50.0, 0.017, 0.165, g.RET3[i], 7.0)
    {
      Product.EnumerateOrder(g, 0, 0, 0, i, 0);
      assert Product.Index5(g, 0, 0, 0, i, 0) == i;
    }
  }

  /** A drill-down request's singleton grids enumerate exactly the clicked
      tuple, so its sweep has one row; it succeeds when the backtests of the
      tuple and of the tuple with MA truncated succeed, and with a whole-number
      MA it fails exactly when the tuple's backtest raises and otherwise
      returns that tuple as the best parameters. */
  lemma SingletonSweep<R>(p: StrategyParams, backtest: StrategyParams -> Result<R>, apyOf: R -> real)
    ensures Product.Enumerate(Tab.SingletonGrids(p)) == [p]
    ensures backtest(p).Success? && backtest(p.(MA := PyInt(p.MA) as real)).Success? ==>
              Sweep(Tab.SingletonGrids(p), backtest, apyOf).Success?
    ensures Sweep(Tab.SingletonGrids(p), backtest, apyOf).Success? ==>
              |Sweep(Tab.SingletonGrids(p), backtest, apyOf).value.rows| == 1
    ensures IsIntegral(p.MA) ==>
              (Sweep(Tab.SingletonGrids(p), backtest, apyOf).Success? <==> backtest(p).Success?)
              && (backtest(p).Success? ==> Sweep(Tab.SingletonGrids(p), backtest, apyOf).value.bestParams == p)
  {
    var g := Tab.SingletonGrids(p);
    Product.EnumerateOrder(g, 0, 0, 0, 0, 0);
    assert Product.Index5(g, 0, 0, 0, 0, 0) == 0;
    if IsIntegral(p.MA) {
      PyIntOfIntegral(p.MA);
    }
  }
}

=== FILE: product.dfy ===
/** `itertools.product` over two sequences, nested to cover five grids: the
    first sequence varies slowest and the last fastest. */
module Product {
  import opened Types

  /** Every `(x, y)` with `x` from `xs` and `y` from `ys`, `xs` in the outer loop. */
  function Pairs<A, B>(xs: seq<A>, ys: seq<B>): (ps: seq<(A, B)>)
    ensures |ps| == |xs| * |ys|
    decreases |xs|
  {
    if |xs| == 0 then []
    else seq(|ys|, j requires 0 <= j < |ys| => (xs[0], ys[j])) + Pairs(xs[1..], ys)
  }

  /** Row-major position of `(i, j)` in an `n`-by-`m` product. */
  function Pos(i: nat, j: nat, m: nat): nat { i * m + j }

  /** Position `i * |ys| + j` holds `(xs[i], ys[j])`. */
  lemma {:induction false} PairsAt<A, B>(xs: seq<A>, ys: seq<B>, i: nat, j: nat)
    requires i < |xs| && j < |ys|
    ensures Pos(i, j, |ys|) < |Pairs(xs, ys)|
    ensures Pairs(xs, ys)[Pos(i, j, |ys|)] == (xs[i], ys[j])
    decreases i
  {
    MulBound(i, |xs|, |ys|, j);
    if i > 0 {
      PairsAt(xs[1..], ys, i - 1, j);
      assert Pos(i, j, |ys|) == |ys| + Pos(i - 1, j, |ys|);
    }
  }

  /** `i * m + j < n * m` for `i < n` and `j < m`. */
  lemma MulBound(i: nat, n: nat, m: nat, j: nat)
    requires i < n && j < m
    ensures i * m + j < n * m
  {
    assert (i + 1) * m <= n * m;
  }

  /** Every position of the product is some `i * |ys| + j`: the quotient and
      remainder by `|ys|`. */
  lemma PairsCovers<A, B>(xs: seq<A>, ys: seq<B>, k: nat)
    requires k < |Pairs(xs, ys)|
    ensures exists i, j :: 0 <= i < |xs| && 0 <= j < |ys| && k == Pos(i, j, |ys|)
  {
    Decompose(k, |xs|, |ys|);
  }

  /** Every `k < n * m` is `Pos(i, j, m)` for some `i < n` and `j < m`. */
  lemma Decompose(k: nat, n: nat, m: nat)
    requires k < n * m
    ensures exists i, j :: 0 <= i < n && 0 <= j < m && k == Pos(i, j, m)
  {
    assert m != 0;
    var i, j := k / m, k % m;
    assert k == Pos(i, j, m);
    QuotientBound(k, n, m);
  }

  /** Below `n * m`, the quotient by `m` is below `n`. */
  lemma QuotientBound(k: nat, n: nat, m: nat)
    requires m > 0 && k < n * m
    ensures k / m < n
  {
    var q := k / m;
    assert q * m <= k;
    MulLess(q, n, m);
  }

  lemma MulLess(a: int, b: int, m: int)
    requires m > 0 && a * m < b * m
    ensures a < b
  {
  }

  /** A pair is in the product exactly when each part is in its sequence. */
  lemma PairsMembership<A, B>(xs: seq<A>, ys: seq<B>, x: A, y: B)
    ensures (x, y) in Pairs(xs, ys) <==> x in xs && y in ys
  {
    if (x, y) in Pairs(xs, ys) {
      var k :| 0 <= k < |Pairs(xs, ys)| && Pairs(xs, ys)[k] == (x, y);
      PairsCovers(xs, ys, k);
      var i, j :| 0 <= i < |xs| && 0 <= j < |ys| && k == Pos(i, j, |ys|);
      PairsAt(xs, ys, i, j);
    }
    if x in xs && y in ys {
      var i :| 0 <= i < |xs| && xs[i] == x;
      var j :| 0 <= j < |ys| && ys[j] == y;
      PairsAt(xs, ys, i, j);
    }
  }

  /** The five grids nested MA, DROP, CHG4, RET3, SPREAD_LVL. */
  function Nested(g: Grids): seq<(real, (real, (real, (real, real))))> {
    Pairs(g.MA, Pairs(g.DROP, Pairs(g.CHG4, Pairs(g.RET3, g.SPREAD_LVL))))
  }

  function Flatten(t: (real, (real, (real, (real, real))))): StrategyParams {
    StrategyParams(t.0, t.1.0, t.1.1.0, t.1.1.1.0, t.1.1.1.1)
  }

  /** `itertools.product(MA_grid, DROP_grid, CHG4_grid, RET3_grid, SPREAD_grid)`. */
  function Enumerate(g: Grids): (ps: seq<StrategyParams>)
    ensures |ps| == |g.MA| * (|g.DROP| * (|g.CHG4| * (|g.RET3| * |g.SPREAD_LVL|)))
  {
    var n := Nested(g);
    seq(|n|, k requires 0 <= k < |n| => Flatten(n[k]))
  }

  /** A tuple is enumerated exactly when each of its fields is in its grid. */
  lemma EnumerateMembership(g: Grids, p: StrategyParams)
    ensures p in Enumerate(g) <==>
              p.MA in g.MA && p.DROP in g.DROP && p.CHG4 in g.CHG4 && p.RET3 in g.RET3 && p.SPREAD_LVL in g.SPREAD_LVL
  {
    var t := (p.MA, (p.DROP, (p.CHG4, (p.RET3, p.SPREAD_LVL))));
    PairsMembership(g.RET3, g.SPREAD_LVL, p.RET3, p.SPREAD_LVL);
    PairsMembership(g.CHG4, Pairs(g.RET3, g.SPREAD_LVL), p.CHG4, t.1.1.1);
    PairsMembership(g.DROP, Pairs(g.CHG4, Pairs(g.RET3, g.SPREAD_LVL)), p.DROP, t.1.1);
    PairsMembership(g.MA, Pairs(g.DROP, Pairs(g.CHG4, Pairs(g.RET3, g.SPREAD_LVL))), p.MA, t.1);
    var n := Nested(g);
    if p in Enumerate(g) {
      var k :| 0 <= k < |n| && Enumerate(g)[k] == p;
      assert Flatten(n[k]) == p;
      assert n[k] == t;
    }
    if t in n {
      var k :| 0 <= k < |n| && n[k] == t;
      assert Enumerate(g)[k] == p;
    }
  }

  /** Mixed-radix position of the index tuple `(a, b, c, d, e)`, the
      SPREAD_LVL index counting fastest. */
  function Index5(g: Grids, a: nat, b: nat, c: nat, d: nat, e: nat): nat {
    Pos(Pos(Pos(Pos(a, b, |g.DROP|), c, |g.CHG4|), d, |g.RET3|), e, |g.SPREAD_LVL|)
  }

  /** Enumeration order: the tuple of indices `(a, b, c, d, e)` sits at its
      mixed-radix position, with the SPREAD_LVL grid varying fastest and the
      MA grid slowest. */
  lemma EnumerateOrder(g: Grids, a: nat, b: nat, c: nat, d: nat, e: nat)
    requires a < |g.MA| && b < |g.DROP| && c < |g.CHG4| && d < |g.RET3| && e < |g.SPREAD_LVL|
    ensures Index5(g, a, b, c, d, e) < |Enumerate(g)|
    ensures Enumerate(g)[Index5(g, a, b, c, d, e)] == StrategyParams(g.MA[a], g.DROP[b], g.CHG4[c], g.RET3[d], g.SPREAD_LVL[e])
  {
    var k := NestedAt(g, a, b, c, d, e);
    MixedRadix(a, b, c, d, e, |g.DROP|, |g.CHG4|, |g.RET3|, |g.SPREAD_LVL|);
    assert k == Index5(g, a, b, c, d, e);
    EnumerateAt(g, k);
  }

  lemma EnumerateAt(g: Grids, k: nat)
    requires k < |Nested(g)|
    ensures k < |Enumerate(g)| && Enumerate(g)[k] == Flatten(Nested(g)[k])
  {
  }

  /** Where the nested pairs put the tuple of indices `(a, b, c, d, e)`. */
  lemma NestedAt(g: Grids, a: nat, b: nat, c: nat, d: nat, e: nat) returns (k: nat)
    requires a < |g.MA| && b < |g.DROP| && c < |g.CHG4| && d < |g.RET3| && e < |g.SPREAD_LVL|
    ensures k == a * (|g.DROP| * (|g.CHG4| * (|g.RET3| * |g.SPREAD_LVL|)))
                 + (b * (|g.CHG4| * (|g.RET3| * |g.SPREAD_LVL|)) + (c * (|g.RET3| * |g.SPREAD_LVL|) + (d * |g.SPREAD_LVL| + e)))
    ensures k < |Nested(g)|
    ensures Nested(g)[k] == (g.MA[a], (g.DROP[b], (g.CHG4[c], (g.RET3[d], g.SPREAD_LVL[e]))))
  {
    var p4 := Pairs(g.RET3, g.SPREAD_LVL);
    var p3 := Pairs(g.CHG4, p4);
    var p2 := Pairs(g.DROP, p3);
    PairsAt(g.RET3, g.SPREAD_LVL, d, e);
    var k4 := Pos(d, e, |g.SPREAD_LVL|);
    PairsAt(g.CHG4, p4, c, k4);
    var k3 := Pos(c, k4, |p4|);
    PairsAt(g.DROP, p3, b, k3);
    var k2 := Pos(b, k3, |p3|);
    PairsAt(g.MA, p2, a, k2);
    k := Pos(a, k2, |p2|);
  }

  /** The nested positions agree with the mixed-radix one. */
  lemma MixedRadix(a: nat, b: nat, c: nat, d: nat, e: nat, nb: nat, nc: nat, nd: nat, ne: nat)
    ensures a * (nb * (nc * (nd * ne))) + (b * (nc * (nd * ne)) + (c * (nd * ne) + (d * ne + e)))
            == (((a * nb + b) * nc + c) * nd + d) * ne + e
  {
    calc {
      (((a * nb + b) * nc + c) * nd + d) * ne + e;
      ((a * nb * nc + b * nc + c) * nd + d) * ne + e;
      (a * nb * nc * nd + b * nc * nd + c * nd + d) * ne + e;
      a * nb * nc * nd * ne + b * nc * nd * ne + c * nd * ne + d * ne + e;
    }
  }
}

=== FILE: session.dfy ===
/** The optimizer hook: one sweep session at a time, driven by the frames of
    the sweep stream.  The hook keeps the last controller it started and
    aborts it before starting another or on cancel; the frame handlers carry
    no session identity, so they apply whatever frame reaches them. */
module Session {
  import opened Wrappers
  import opened Types

  /** Identifies the abort controller of one stream request. */
  type ControllerId = nat

  datatype Progress = Progress(current: int, total: int)

  /** The hook's state; `abortRef` is the stored controller and `aborted` logs
      every `abort()` call in order. */
  datatype State = State(result: Option<OptimizerResponse>, progress: Option<Progress>, loading: bool,
                         error: Option<string>, abortRef: Option<ControllerId>, aborted: seq<ControllerId>)

  const Initial := State(None, None, false, None, None, [])

  /** The `abort()` of the stored controller, when there is one. */
  function AbortStored(s: State): seq<ControllerId> {
    if s.abortRef.Some? then s.aborted + [s.abortRef.value] else s.aborted
  }

  /** `run`: abort the stored controller if any, reset to loading with nothing
      else set, start a stream whose controller is `c` and store it. */
  function Run(s: State, c: ControllerId): (s': State)
    ensures s'.loading && s'.error.None? && s'.result.None? && s'.progress.None?
    ensures s'.abortRef == Some(c)
    ensures s.abortRef.Some? ==> s'.aborted == s.aborted + [s.abortRef.value]
    ensures s.abortRef.None? ==> s'.aborted == s.aborted
  {
    State(None, None, true, None, Some(c), AbortStored(s))
  }

  /** `cancel`: abort the stored controller if any (it stays stored) and stop
      loading; the result and the error are left as they are. */
  function Cancel(s: State): (s': State)
    ensures !s'.loading && s'.progress.None?
    ensures s'.result == s.result && s'.error == s.error && s'.abortRef == s.abortRef
    ensures s.abortRef.Some? ==> s'.aborted == s.aborted + [s.abortRef.value]
    ensures s.abortRef.None? ==> s'.aborted == s.aborted
  {
    s.(loading := false, progress := None, aborted := AbortStored(s))
  }

  /** The `onProgress`, `onResult` and `onError` handlers. */
  function OnFrame(s: State, f: Frame): (s': State)
    ensures s'.abortRef == s.abortRef && s'.aborted == s.aborted
    ensures f.ProgressFrame? ==> s' == s.(progress := Some(Progress(f.current, f.total)))
    ensures f.ResultFrame? ==> s'.result == Some(f.response) && !s'.loading && s'.progress.None? && s'.error == s.error
    ensures f.ErrorFrame? ==> s'.error == Some(f.message) && !s'.loading && s'.progress.None? && s'.result == s.result
  {
    match f
    case ProgressFrame(c, t) => s.(progress := Some(Progress(c, t)))
    case ResultFrame(r) => s.(result := Some(r), loading := false, progress := None)
    case ErrorFrame(m) => s.(error := Some(m), loading := false, progress := None)
  }

  /** The handlers applied to frames in arrival order. */
  function Consume(s: State, frames: seq<Frame>): State
    decreases |frames|
  {
    if frames == [] then s else Consume(OnFrame(s, frames[0]), frames[1..])
  }

  /** The shape the server's stream has: progress frames, then one terminal frame. */
  predicate WellFormed(frames: seq<Frame>) {
    |frames| >= 1 && frames[|frames| - 1].IsTerminal()
    && forall i :: 0 <= i < |frames| - 1 ==> frames[i].ProgressFrame?
  }

  /** Progress frames only move `progress`: a running session stays running
      with no result and no error, and shows the latest frame's counts. */
  lemma {:induction false} ProgressKeepsSessionRunning(s: State, frames: seq<Frame>)
    requires forall i :: 0 <= i < |frames| ==> frames[i].ProgressFrame?
    ensures Consume(s, frames) == (if frames == [] then s
                                   else s.(progress := Some(Progress(frames[|frames| - 1].current,
                                                                     frames[|frames| - 1].total))))
    decreases |frames|
  {
    if frames != [] {
      var t := frames[1..];
      ProgressKeepsSessionRunning(OnFrame(s, frames[0]), t);
      if t != [] {
        assert t[|t| - 1] == frames[|frames| - 1];
      }
    }
  }

  lemma {:induction false} ConsumeAppend(s: State, a: seq<Frame>, b: seq<Frame>)
    ensures Consume(s, a + b) == Consume(Consume(s, a), b)
    decreases |a|
  {
    if a == [] {
      assert a + b == b;
    } else {
      assert (a + b)[0] == a[0] && (a + b)[1..] == a[1..] + b;
      ConsumeAppend(OnFrame(s, a[0]), a[1..], b);
    }
  }

  /** A session started by `run` and fed a whole stream ends not loading, with
      no progress, and with exactly one of result and error: the terminal
      frame's.  The stored controller is the run's. */
  lemma StreamSettlesSession(s: State, c: ControllerId, frames: seq<Frame>)
    requires WellFormed(frames)
    ensures var t := Consume(Run(s, c), frames);
            && !t.loading && t.progress.None? && t.abortRef == Some(c)
            && (t.result.Some? != t.error.Some?)
            && (frames[|frames| - 1].ResultFrame? ==> t.result == Some(frames[|frames| - 1].response))
            && (frames[|frames| - 1].ErrorFrame? ==> t.error == Some(frames[|frames| - 1].message))
  {
    var n := |frames| - 1;
    var prefix := frames[..n];
    assert frames == prefix + [frames[n]];
    ConsumeAppend(Run(s, c), prefix, [frames[n]]);
    ProgressKeepsSessionRunning(Run(s, c), prefix);
    var mid := Consume(Run(s, c), prefix);
    assert mid.result.None? && mid.error.None? && mid.abortRef == Some(c);
    assert Consume(mid, [frames[n]]) == OnFrame(mid, frames[n]);
  }

  /** Cancelling twice aborts the stored controller twice and changes nothing else. */
  lemma CancelTwice(s: State)
    ensures Cancel(Cancel(s)).(aborted := []) == Cancel(s).(aborted := [])
    ensures s.abortRef.Some? ==> Cancel(Cancel(s)).aborted == s.aborted + [s.abortRef.value, s.abortRef.value]
  {
  }

  /** No frame is suppressed after `cancel`: a late error frame still records
      its message and a late result frame still records its response. */
  lemma LateFrameAfterCancelApplies(s: State, f: Frame)
    requires f.IsTerminal()
    ensures f.ResultFrame? ==> OnFrame(Cancel(s), f).result == Some(f.response)
    ensures f.ErrorFrame? ==> OnFrame(Cancel(s), f).error == Some(f.message)
  {
  }
}

=== FILE: settings.dfy ===
/** The settings hook: defaults merged field by field with the stored record
    at start-up, shallow patches afterwards, and the whole record written back
    to storage after every change. */
module SettingsStore {
  import opened Wrappers

  datatype InputType = Csv | Api

  datatype Settings = Settings(theme: string, inputType: InputType, cashRate: real, startInvested: int)

  /** A partial record: the keys a parsed JSON object or a patch actually has. */
  datatype Patch = Patch(theme: Option<string>, inputType: Option<InputType>,
                         cashRate: Option<real>, startInvested: Option<int>)

  const EmptyPatch := Patch(None, None, None, None)

  const Defaults := Settings("slate", Csv, 0.04, 1)

  /** The fixed storage key. */
  const StorageKey := "strat-opt-settings"

  /** `{ ...base, ...patch }`: every key the patch has wins. */
  function Merge(base: Settings, patch: Patch): (s: Settings)
    ensures s.theme == patch.theme.GetOr(base.theme)
    ensures s.inputType == patch.inputType.GetOr(base.inputType)
    ensures s.cashRate == patch.cashRate.GetOr(base.cashRate)
    ensures s.startInvested == patch.startInvested.GetOr(base.startInvested)
  {
    Settings(patch.theme.GetOr(base.theme), patch.inputType.GetOr(base.inputType),
             patch.cashRate.GetOr(base.cashRate), patch.startInvested.GetOr(base.startInvested))
  }

  /** `loadSettings`: an absent or empty stored string, or one that does not
      parse (`parse` gives None where `JSON.parse` throws), yields the
      defaults; otherwise the parsed keys override the defaults. */
  function LoadSettings(raw: Option<string>, parse: string -> Option<Patch>): Settings {
    if raw.Some? && raw.value != [] then
      match parse(raw.value)
      case Some(p) => Merge(Defaults, p)
      case None => Defaults
    else Defaults
  }

  /** The stored `{theme: 'dark'}` loads as dark with every other default. */
  lemma LoadExample(raw: string, parse: string -> Option<Patch>)
    requires raw != [] && parse(raw) == Some(Patch(Some("dark"), None, None, None))
    ensures LoadSettings(Some(raw), parse) == Settings("dark", Csv, 0.04, 1)
  {
  }

  /** Without a usable stored record the loaded settings are exactly the defaults. */
  lemma LoadWithoutRecord(raw: Option<string>, parse: string -> Option<Patch>)
    requires raw.None? || raw.value == [] || parse(raw.value).None?
    ensures LoadSettings(raw, parse) == Defaults
  {
  }

  /** `updateSettings`: the patched keys replace, the others stay. */
  function Update(s: Settings, patch: Patch): Settings {
    Merge(s, patch)
  }

  /** An empty patch changes nothing; a patch applied twice is a patch applied
      once; a second patch overrides the first on the keys they share. */
  lemma UpdateLaws(s: Settings, p: Patch, q: Patch)
    ensures Update(s, EmptyPatch) == s
    ensures Update(Update(s, p), p) == Update(s, p)
    ensures Update(Update(s, p), q) == Update(s, Patch(
              if q.theme.Some? then q.theme else p.theme,
              if q.inputType.Some? then q.inputType else p.inputType,
              if q.cashRate.Some? then q.cashRate else p.cashRate,
              if q.startInvested.Some? then q.startInvested else p.startInvested))
  {
  }

  /** The full record as a patch, the shape written to storage. */
  function AsPatch(s: Settings): Patch {
    Patch(Some(s.theme), Some(s.inputType), Some(s.cashRate), Some(s.startInvested))
  }

  /** The live settings, what storage holds under the key, and the theme last
      applied to the document. */
  datatype Store = Store(settings: Settings, persisted: Option<Settings>, appliedTheme: Option<string>)

  /** The effect run after each change of the settings: apply the theme and
      write the whole record. */
  function Persist(st: Store): Store {
    st.(persisted := Some(st.settings), appliedTheme := Some(st.settings.theme))
  }

  /** Mounting the hook: load, then run the effect once. */
  function Mount(raw: Option<string>, parse: string -> Option<Patch>): (st: Store)
    ensures st.settings == LoadSettings(raw, parse)
    ensures st.persisted == Some(st.settings) && st.appliedTheme == Some(st.settings.theme)
  {
    Persist(Store(LoadSettings(raw, parse), None, None))
  }

  /** Each patch is followed by the effect. */
  function ApplyPatches(st: Store, patches: seq<Patch>): Store
    decreases |patches|
  {
    if patches == [] then st else ApplyPatches(Persist(st.(settings := Update(st.settings, patches[0]))), patches[1..])
  }

  /** After any sequence of updates the stored record equals the live settings
      and the live theme is the one applied. */
  lemma {:induction false} PersistedTracksSettings(st: Store, patches: seq<Patch>)
    requires st.persisted == Some(st.settings) || patches != []
    ensures ApplyPatches(st, patches).persisted == Some(ApplyPatches(st, patches).settings)
    ensures patches != [] ==> ApplyPatches(st, patches).appliedTheme == Some(ApplyPatches(st, patches).settings.theme)
    decreases |patches|
  {
    if patches != [] {
      PersistedTracksSettings(Persist(st.(settings := Update(st.settings, patches[0]))), patches[1..]);
    }
  }

  /** Reloading what was written restores the settings, provided the stored
      text parses back to the full record. */
  lemma ReloadRestores(s: Settings, text: string, parse: string -> Option<Patch>)
    requires text != [] && parse(text) == Some(AsPatch(s))
    ensures LoadSettings(Some(text), parse) == s
  {
  }
}

=== FILE: sorting.dfy ===
/** A stable sort by a real-valued key: the behaviour of JavaScript's
    `Array.prototype.sort` with a numeric comparator and of Python's
    `list.sort(key=...)`, both of which keep equal-keyed elements in their
    input order.  Descending orders sort by the negated key. */
module Sorting {

  /** `xs` is ordered by non-decreasing key. */
  predicate SortedBy<T>(xs: seq<T>, key: T -> real) {
    forall i, j :: 0 <= i < j < |xs| ==> key(xs[i]) <= key(xs[j])
  }

  /** The elements of `xs` whose key is `v`, in their order in `xs`. */
  function WithKey<T>(xs: seq<T>, key: T -> real, v: real): (ys: seq<T>)
    ensures |ys| <= |xs|
  {
    if xs == [] then []
    else (if key(xs[0]) == v then [xs[0]] else []) + WithKey(xs[1..], key, v)
  }

  /** A sort is stable when, for every key value, the elements carrying it
      appear in the output in the same order as in the input. */
  ghost predicate Stable<T>(input: seq<T>, output: seq<T>, key: T -> real) {
    forall v :: WithKey(output, key, v) == WithKey(input, key, v)
  }

  /** Insert `x` into sorted `s` after every element whose key is not greater. */
  function Insert<T>(x: T, s: seq<T>, key: T -> real): seq<T> {
    if s == [] then [x]
    else if key(x) < key(s[0]) then [x] + s
    else [s[0]] + Insert(x, s[1..], key)
  }

  lemma {:induction false} InsertMultiset<T>(x: T, s: seq<T>, key: T -> real)
    ensures multiset(Insert(x, s, key)) == multiset(s) + multiset{x}
    decreases |s|
  {
    if s != [] && key(x) >= key(s[0]) {
      InsertMultiset(x, s[1..], key);
      assert s == [s[0]] + s[1..];
    }
  }

  lemma {:induction false} InsertSorted<T>(x: T, s: seq<T>, key: T -> real)
    requires SortedBy(s, key)
    ensures SortedBy(Insert(x, s, key), key)
    decreases |s|
  {
    if s != [] && key(x) >= key(s[0]) {
      var t := s[1..];
      InsertSorted(x, t, key);
      InsertMultiset(x, t, key);
      var r := [s[0]] + Insert(x, t, key);
      forall i, j | 0 <= i < j < |r| ensures key(r[i]) <= key(r[j]) {
        if i == 0 {
          assert r[j] in multiset(Insert(x, t, key));
          assert r[j] == x || r[j] in t;
        }
      }
    }
  }

  /** Filtering a sequence with a given first element. */
  lemma WithKeyCons<T>(y: T, t: seq<T>, key: T -> real, v: real)
    ensures WithKey([y] + t, key, v) == (if key(y) == v then [y] else []) + WithKey(t, key, v)
  {
    assert ([y] + t)[0] == y && ([y] + t)[1..] == t;
  }

  /** The tail of a sorted sequence is sorted. */
  lemma SortedTail<T>(s: seq<T>, key: T -> real)
    requires s != [] && SortedBy(s, key)
    ensures SortedBy(s[1..], key)
  {
    forall i, j | 0 <= i < j < |s| - 1 ensures key(s[1..][i]) <= key(s[1..][j]) {
      assert s[1..][i] == s[i + 1] && s[1..][j] == s[j + 1];
    }
  }

  /** Inserting in front of a sorted sequence whose keys all exceed `x`'s. */
  lemma InsertWithKeyFront<T>(x: T, s: seq<T>, key: T -> real, v: real)
    requires SortedBy(s, key) && s != [] && key(x) < key(s[0])
    ensures WithKey(Insert(x, s, key), key, v) == WithKey(s, key, v) + (if key(x) == v then [x] else [])
  {
    assert Insert(x, s, key) == [x] + s;
    WithKeyCons(x, s, key, v);
    if key(x) == v {
      NoneWithSmallerKey(s, key, v);
    }
  }

  /** Inserting behind the head, given the property for the tail. */
  lemma InsertWithKeyBehind<T>(x: T, s: seq<T>, key: T -> real, v: real)
    requires s != [] && key(x) >= key(s[0])
    requires WithKey(Insert(x, s[1..], key), key, v) == WithKey(s[1..], key, v) + (if key(x) == v then [x] else [])
    ensures WithKey(Insert(x, s, key), key, v) == WithKey(s, key, v) + (if key(x) == v then [x] else [])
  {
    var t := s[1..];
    var i := Insert(x, t, key);
    var h: seq<T> := if key(s[0]) == v then [s[0]] else [];
    var e: seq<T> := if key(x) == v then [x] else [];
    var a := WithKey(t, key, v);
    calc {
      WithKey(Insert(x, s, key), key, v);
      { assert Insert(x, s, key) == [s[0]] + i; }
      WithKey([s[0]] + i, key, v);
      { WithKeyCons(s[0], i, key, v); }
      h + (a + e);
      (h + a) + e;
      { WithKeyCons(s[0], t, key, v); assert [s[0]] + t == s; }
      WithKey(s, key, v) + e;
    }
  }

  lemma {:induction false} InsertWithKey<T>(x: T, s: seq<T>, key: T -> real, v: real)
    requires SortedBy(s, key)
    ensures WithKey(Insert(x, s, key), key, v) == WithKey(s, key, v) + (if key(x) == v then [x] else [])
    decreases |s|
  {
    if s == [] {
      WithKeyCons(x, [], key, v);
      assert [x] + [] == [x];
    } else if key(x) < key(s[0]) {
      InsertWithKeyFront(x, s, key, v);
    } else {
      SortedTail(s, key);
      InsertWithKey(x, s[1..], key, v);
      InsertWithKeyBehind(x, s, key, v);
    }
  }

  lemma InsertKeepsOrder<T>(x: T, s: seq<T>, key: T -> real)
    requires SortedBy(s, key)
    ensures SortedBy(Insert(x, s, key), key)
    ensures multiset(Insert(x, s, key)) == multiset(s) + multiset{x}
    ensures forall v :: WithKey(Insert(x, s, key), key, v)
                        == WithKey(s, key, v) + (if key(x) == v then [x] else [])
  {
    InsertSorted(x, s, key);
    InsertMultiset(x, s, key);
    forall v
      ensures WithKey(Insert(x, s, key), key, v) == WithKey(s, key, v) + (if key(x) == v then [x] else [])
    {
      InsertWithKey(x, s, key, v);
    }
  }

  /** In a sorted sequence whose first key exceeds `v`, no element has key `v`. */
  lemma {:induction false} NoneWithSmallerKey<T>(s: seq<T>, key: T -> real, v: real)
    requires SortedBy(s, key)
    requires s != [] ==> v < key(s[0])
    ensures WithKey(s, key, v) == []
    decreases |s|
  {
    if s != [] {
      NoneWithSmallerKey(s[1..], key, v);
    }
  }

  /** Stable insertion sort: each element, taken in input order, is inserted
      after all earlier elements with a key not greater than its own. */
  function SortBy<T>(xs: seq<T>, key: T -> real): (out: seq<T>)
    ensures SortedBy(out, key)
    ensures multiset(out) == multiset(xs)
    ensures Stable(xs, out, key)
    decreases |xs|
  {
    if xs == [] then []
    else
      var init := xs[..|xs| - 1];
      var last := xs[|xs| - 1];
      var s := SortBy(init, key);
      InsertKeepsOrder(last, s, key);
      WithKeyAppend(init, last, key);
      assert xs == init + [last];
      Insert(last, s, key)
  }

  lemma {:induction false} WithKeyAppend<T>(xs: seq<T>, x: T, key: T -> real)
    ensures forall v :: WithKey(xs + [x], key, v) == WithKey(xs, key, v) + (if key(x) == v then [x] else [])
    decreases |xs|
  {
    if xs == [] {
      assert xs + [x] == [x];
      forall v ensures WithKey([x], key, v) == (if key(x) == v then [x] else []) {
        assert [x][1..] == [];
      }
    } else {
      WithKeyAppend(xs[1..], x, key);
      assert (xs + [x])[1..] == xs[1..] + [x];
    }
  }

  /** Filtering by key distributes over concatenation. */
  lemma {:induction false} WithKeyConcat<T>(a: seq<T>, b: seq<T>, key: T -> real, v: real)
    ensures WithKey(a + b, key, v) == WithKey(a, key, v) + WithKey(b, key, v)
    decreases |a|
  {
    if a == [] {
      assert a + b == b;
    } else {
      WithKeyConcat(a[1..], b, key, v);
      var head := if key(a[0]) == v then [a[0]] else [];
      assert (a + b)[0] == a[0] && (a + b)[1..] == a[1..] + b;
      assert WithKey(a + b, key, v) == head + WithKey(a[1..] + b, key, v);
      assert WithKey(a, key, v) == head + WithKey(a[1..], key, v);
    }
  }
}

=== FILE: sphy.dfy ===
/** The SPHY strategy's sell and buy rules over the weekly rows, plugged into
    the shared position loop.  A missing value (pandas NaN) is `None`; every
    comparison with a missing value is false. */
module Sphy {
  import opened Wrappers
  import opened Types
  import Strategy

  /** One weekly row as the rules read it.  `ma` is the moving-average column
      named after the strategy's MA length, computed upstream. */
  datatype SphyRow = SphyRow(
    close: Option<real>,
    ma: Option<real>,
    spread: Option<real>,
    chg4: Option<real>,
    ret3: Option<real>,
    spreadDelta: Option<real>)

  predicate Above(x: Option<real>, bound: real) { x.Some? && x.value > bound }
  predicate Below(x: Option<real>, bound: real) { x.Some? && x.value < bound }

  /** `evaluate_sell`: any present spread above the level, 4-week change above
      its threshold, or 3-week return below its threshold. */
  function EvaluateSell(row: SphyRow, p: StrategyParams): (r: bool)
    ensures r ==> row.spread.Some? || row.chg4.Some? || row.ret3.Some?
  {
    Above(row.spread, p.SPREAD_LVL) || Above(row.chg4, p.CHG4) || Below(row.ret3, p.RET3)
  }

  /** Tighter thresholds sell at least as often: a lower spread level, a lower
      4-week change threshold and a higher 3-week return threshold. */
  lemma SellMonotone(row: SphyRow, p: StrategyParams, q: StrategyParams)
    requires q.SPREAD_LVL <= p.SPREAD_LVL && q.CHG4 <= p.CHG4 && q.RET3 >= p.RET3
    ensures EvaluateSell(row, p) ==> EvaluateSell(row, q)
  {
  }

  /** The largest present value, `None` when every value is missing
      (`Series.max()` skips NaN and is NaN on an all-NaN window). */
  function PeakOf(xs: seq<Option<real>>): (m: Option<real>)
    ensures m.None? <==> forall i :: 0 <= i < |xs| ==> xs[i].None?
    ensures m.Some? ==> exists i :: 0 <= i < |xs| && xs[i] == m
    ensures m.Some? ==> forall i :: 0 <= i < |xs| && xs[i].Some? ==> xs[i].value <= m.value
    decreases |xs|
  {
    if |xs| == 0 then None
    else
      var rest := PeakOf(xs[1..]);
      assert forall i :: 1 <= i < |xs| ==> xs[i] == xs[1..][i - 1];
      if xs[0].None? then rest
      else if rest.None? || rest.value < xs[0].value then xs[0]
      else rest
  }

  /** The spread column of rows `lo` up to `hi`, both included. */
  function Spreads(df: seq<SphyRow>, lo: nat, hi: nat): (s: seq<Option<real>>)
    requires lo <= hi < |df|
    ensures |s| == hi - lo + 1 && forall j :: 0 <= j < |s| ==> s[j] == df[lo + j].spread
  {
    seq(hi - lo + 1, j requires 0 <= j < hi - lo + 1 => df[lo + j].spread)
  }

  /** The most the spread may reach to count as having dropped from `peak`. */
  function DropLevel(peak: real, drop: real): real { peak * (1.0 - drop) }

  /** First row of the 4-week window ending at `idx` (`iloc[-4:]` of rows up to `idx`). */
  function WindowStart(idx: nat): nat { if idx >= 3 then idx - 3 else 0 }

  /** `evaluate_buy`: only after a sell, with the MA present, at least three
      rows of history, both of the last two spread deltas negative, the close
      above the MA, and the spread at most the 4-week peak scaled by `1 - DROP`. */
  function EvaluateBuy(df: seq<SphyRow>, idx: nat, lastActionWasSell: bool, p: StrategyParams): (r: bool)
    requires idx < |df|
  {
    if !lastActionWasSell then false
    else if df[idx].ma.None? then false
    else
      var cond1 := df[idx].close.Some? && df[idx].close.value > df[idx].ma.value;
      if idx + 1 < 3 then false
      else
        var cond2 := Below(df[idx - 1].spreadDelta, 0.0) && Below(df[idx].spreadDelta, 0.0);
        var peak := PeakOf(Spreads(df, WindowStart(idx), idx));
        if peak.None? || df[idx].spread.None? then false
        else
          var cond3 := df[idx].spread.value <= DropLevel(peak.value, p.DROP);
          cond1 && cond2 && cond3
  }

  /** `v` is the largest spread present in the rows `lo` up to `hi`. */
  ghost predicate IsWindowPeak(df: seq<SphyRow>, lo: nat, hi: nat, v: real)
    requires lo <= hi < |df|
  {
    && (exists j :: lo <= j <= hi && df[j].spread == Some(v))
    && (forall j :: lo <= j <= hi && df[j].spread.Some? ==> df[j].spread.value <= v)
  }

  /** The peak of the window's spread column is its unique largest present
      spread, and is missing only when every spread in it is. */
  lemma WindowPeak(df: seq<SphyRow>, lo: nat, hi: nat)
    requires lo <= hi < |df|
    ensures var peak := PeakOf(Spreads(df, lo, hi));
            && (peak.None? <==> forall j :: lo <= j <= hi ==> df[j].spread.None?)
            && (peak.Some? ==> IsWindowPeak(df, lo, hi, peak.value))
            && (forall v :: IsWindowPeak(df, lo, hi, v) ==> peak == Some(v))
  {
    var window := Spreads(df, lo, hi);
    var peak := PeakOf(window);
    if peak.None? {
      forall j | lo <= j <= hi
        ensures df[j].spread.None?
      {
        assert window[j - lo] == df[j].spread;
      }
    } else {
      var i :| 0 <= i < |window| && window[i] == peak;
      assert df[lo + i].spread == Some(peak.value);
      forall j | lo <= j <= hi && df[j].spread.Some?
        ensures df[j].spread.value <= peak.value
      {
        assert window[j - lo] == df[j].spread;
      }
    }
    forall v | IsWindowPeak(df, lo, hi, v)
      ensures peak == Some(v)
    {
      var j :| lo <= j <= hi && df[j].spread == Some(v);
      assert window[j - lo] == Some(v);
      var i :| 0 <= i < |window| && window[i] == peak;
      assert df[lo + i].spread == peak;
    }
  }

  /** The buy rule fires exactly when every one of its conditions holds, with
      the peak read as the largest spread present in the window. */
  lemma BuyConditions(df: seq<SphyRow>, idx: nat, flag: bool, p: StrategyParams)
    requires idx < |df|
    ensures EvaluateBuy(df, idx, flag, p) <==>
              && flag
              && idx >= 2
              && df[idx].ma.Some? && df[idx].close.Some? && df[idx].close.value > df[idx].ma.value
              && Below(df[idx - 1].spreadDelta, 0.0) && Below(df[idx].spreadDelta, 0.0)
              && df[idx].spread.Some?
              && exists v :: IsWindowPeak(df, WindowStart(idx), idx, v) && df[idx].spread.value <= DropLevel(v, p.DROP)
  {
    if flag && idx >= 2 && df[idx].ma.Some? && df[idx].spread.Some? {
      var lo := WindowStart(idx);
      WindowPeak(df, lo, idx);
      var peak := PeakOf(Spreads(df, lo, idx));
      assert peak.Some?;
      assert IsWindowPeak(df, lo, idx, peak.value);
      if exists v :: IsWindowPeak(df, lo, idx, v) && df[idx].spread.value <= DropLevel(v, p.DROP) {
        var v :| IsWindowPeak(df, lo, idx, v) && df[idx].spread.value <= DropLevel(v, p.DROP);
        assert peak == Some(v);
      }
    }
  }

  /** The strategy's rules as the shared loop consults them. */
  function SellRule(df: seq<SphyRow>, p: StrategyParams): Strategy.SellRule {
    (i: nat) => i < |df| && EvaluateSell(df[i], p)
  }

  function BuyRule(df: seq<SphyRow>, p: StrategyParams): Strategy.BuyRule {
    (i: nat, flag: bool) => i < |df| && EvaluateBuy(df, i, flag, p)
  }

  /** `SPHYStrategy(...).run(df, start_invested)`. */
  function Run(df: seq<SphyRow>, p: StrategyParams, startInvested: int): Strategy.RunResult {
    Strategy.Run(|df|, startInvested, SellRule(df, p), BuyRule(df, p))
  }

  /** SPHY buys only after a sell, and started in cash it never trades. */
  lemma SphyBuysFollowSells(df: seq<SphyRow>, p: StrategyParams, startInvested: int)
    ensures forall b :: b in Run(df, p, startInvested).buys ==>
              exists s :: s in Run(df, p, startInvested).sells && s < b
    ensures startInvested != 1 ==>
              Run(df, p, startInvested) == Strategy.RunResult(seq(|df|, _ => startInvested), [], [])
  {
    var buy := BuyRule(df, p);
    assert forall i: nat :: !buy(i, false);
    Strategy.BuyOnlyAfterSell(|df|, startInvested, SellRule(df, p), buy);
    if startInvested != 1 {
      Strategy.CashStartNeverTrades(|df|, startInvested, SellRule(df, p), buy);
    }
  }
}

=== FILE: strategy.dfy ===
/** The position machine every strategy runs over the weekly rows, with the
    strategy's sell and buy rules as parameters, and the buy-and-hold strategy
    that replaces it.  Rows are named by their position; the buy and sell lists
    hold the positions of the rows where a trade happened. */
module Strategy {

  /** `evaluate_sell(row)`: consulted only while invested. */
  type SellRule = nat -> bool

  /** `evaluate_buy(row, last_action_was_sell)`: consulted only while in cash. */
  type BuyRule = (nat, bool) -> bool

  /** The loop's variables after some rows. */
  datatype LoopState = LoopState(invested: int, wasSold: bool, positions: seq<int>, buys: seq<nat>, sells: seq<nat>)

  /** What a run returns: one position per row and the trade rows. */
  datatype RunResult = RunResult(positions: seq<int>, buys: seq<nat>, sells: seq<nat>)

  /** Row `i` of the loop: while invested (`invested == 1`) a sell moves to cash
      and is remembered; otherwise a buy, told whether a sell happened, moves
      into the market.  The position after the row is recorded. */
  function Step(s: LoopState, i: nat, sell: SellRule, buy: BuyRule): LoopState {
    var s1 :=
      if s.invested == 1 then
        if sell(i) then s.(invested := 0, wasSold := true, sells := s.sells + [i]) else s
      else
        if buy(i, s.wasSold) then s.(invested := 1, buys := s.buys + [i]) else s;
    s1.(positions := s1.positions + [s1.invested])
  }

  /** The loop after its first `k` rows, from `invested = start_invested`. */
  function RunPrefix(k: nat, start: int, sell: SellRule, buy: BuyRule): LoopState
    decreases k
  {
    if k == 0 then LoopState(start, false, [], [], [])
    else Step(RunPrefix(k - 1, start, sell, buy), k - 1, sell, buy)
  }

  /** `BaseStrategy.run` over `n` rows. */
  function Run(n: nat, start: int, sell: SellRule, buy: BuyRule): RunResult {
    var s := RunPrefix(n, start, sell, buy);
    RunResult(s.positions, s.buys, s.sells)
  }

  predicate StrictlyIncreasing(xs: seq<nat>) {
    forall i, j :: 0 <= i < j < |xs| ==> xs[i] < xs[j]
  }

  /** The state before row `i` (`start` before the first row). */
  function Before(positions: seq<int>, start: int, i: nat): int
    requires i <= |positions|
  {
    if i == 0 then start else positions[i - 1]
  }

  /** `a` and `b` interleave starting with `a`: a[0] < b[0] < a[1] < b[1] < ...,
      that is `a[i]` comes before `b[j]` exactly when `i <= j`. */
  predicate Interleaved(a: seq<nat>, b: seq<nat>) {
    && (|a| == |b| || |a| == |b| + 1)
    && forall i, j :: 0 <= i < |a| && 0 <= j < |b| ==>
         (i <= j ==> a[i] < b[j]) && (j < i ==> b[j] < a[i])
  }

  /** Trades alternate: starting invested, as sell, buy, sell, ...; starting
      in cash, as buy, sell, buy, ... */
  predicate Alternates(start: int, buys: seq<nat>, sells: seq<nat>) {
    if start == 1 then Interleaved(sells, buys) else Interleaved(buys, sells)
  }

  /** The loop's invariant after `k` rows, in five parts. */
  predicate Shape(s: LoopState, k: nat, start: int) {
    |s.positions| == k && s.invested == Before(s.positions, start, k)
  }

  predicate Bounded(s: LoopState, k: nat) {
    && (forall i :: 0 <= i < |s.buys| ==> s.buys[i] < k)
    && (forall i :: 0 <= i < |s.sells| ==> s.sells[i] < k)
    && StrictlyIncreasing(s.buys) && StrictlyIncreasing(s.sells)
  }

  predicate SoldFlag(s: LoopState) {
    s.wasSold <==> |s.sells| > 0
  }

  /** Trades alternate, and the last one decides the current state. */
  predicate Balance(s: LoopState, start: int) {
    && Alternates(start, s.buys, s.sells)
    && (start == 1 ==> s.invested == (if |s.sells| == |s.buys| then 1 else 0))
    && (start != 1 ==> s.invested == (if |s.buys| == |s.sells| + 1 then 1 else if |s.buys| == 0 then start else 0))
  }

  /** A row changes the state exactly when it trades, in the trade's direction. */
  predicate SellRow(s: LoopState, start: int, i: nat)
    requires i < |s.positions|
  {
    i in s.sells <==> Before(s.positions, start, i) == 1 && s.positions[i] == 0
  }

  predicate BuyRow(s: LoopState, start: int, i: nat)
    requires i < |s.positions|
  {
    i in s.buys <==> Before(s.positions, start, i) != 1 && s.positions[i] == 1
  }

  predicate QuietRow(s: LoopState, start: int, i: nat)
    requires i < |s.positions|
  {
    s.positions[i] == Before(s.positions, start, i) || i in s.buys || i in s.sells
  }

  predicate RowValue(s: LoopState, start: int, i: nat)
    requires i < |s.positions|
  {
    s.positions[i] == 0 || s.positions[i] == 1 || s.positions[i] == start
  }

  predicate SellRows(s: LoopState, k: nat, start: int)
    requires |s.positions| == k
  {
    forall i :: 0 <= i < k ==> SellRow(s, start, i)
  }

  predicate BuyRows(s: LoopState, k: nat, start: int)
    requires |s.positions| == k
  {
    forall i :: 0 <= i < k ==> BuyRow(s, start, i)
  }

  predicate QuietRows(s: LoopState, k: nat, start: int)
    requires |s.positions| == k
  {
    forall i :: 0 <= i < k ==> QuietRow(s, start, i)
  }

  predicate RowValues(s: LoopState, k: nat, start: int)
    requires |s.positions| == k
  {
    forall i :: 0 <= i < k ==> RowValue(s, start, i)
  }

  predicate RowsExplained(s: LoopState, k: nat, start: int)
    requires |s.positions| == k
  {
    SellRows(s, k, start) && BuyRows(s, k, start) && QuietRows(s, k, start) && RowValues(s, k, start)
  }

  ghost predicate Invariant(s: LoopState, k: nat, start: int) {
    Shape(s, k, start) && Bounded(s, k) && SoldFlag(s) && Balance(s, start) && RowsExplained(s, k, start)
  }

  lemma BeforeExtend(p: seq<int>, x: int, start: int, i: nat)
    requires i <= |p|
    ensures Before(p + [x], start, i) == Before(p, start, i)
  {
  }

  lemma StepShape(s: LoopState, k: nat, start: int, sell: SellRule, buy: BuyRule)
    requires Shape(s, k, start)
    ensures Shape(Step(s, k, sell, buy), k + 1, start)
  {
  }

  lemma StepSoldFlag(s: LoopState, k: nat, sell: SellRule, buy: BuyRule)
    requires SoldFlag(s)
    ensures SoldFlag(Step(s, k, sell, buy))
  {
  }

  lemma StepBounded(s: LoopState, k: nat, sell: SellRule, buy: BuyRule)
    requires Bounded(s, k)
    ensures Bounded(Step(s, k, sell, buy), k + 1)
  {
  }

  lemma InterleavedExtendFirst(a: seq<nat>, b: seq<nat>, x: nat)
    requires Interleaved(a, b) && |a| == |b|
    requires forall j :: 0 <= j < |b| ==> b[j] < x
    ensures Interleaved(a + [x], b)
  {
  }

  lemma InterleavedExtendSecond(a: seq<nat>, b: seq<nat>, x: nat)
    requires Interleaved(a, b) && |a| == |b| + 1
    requires forall i :: 0 <= i < |a| ==> a[i] < x
    ensures Interleaved(a, b + [x])
  {
  }

  lemma StepBalance(s: LoopState, k: nat, start: int, sell: SellRule, buy: BuyRule)
    requires Bounded(s, k) && Balance(s, start)
    ensures Balance(Step(s, k, sell, buy), start)
  {
    var s' := Step(s, k, sell, buy);
    if s.invested == 1 && sell(k) {
      assert s'.sells == s.sells + [k] && s'.buys == s.buys;
      if start == 1 {
        InterleavedExtendFirst(s.sells, s.buys, k);
      } else {
        InterleavedExtendSecond(s.buys, s.sells, k);
      }
    } else if s.invested != 1 && buy(k, s.wasSold) {
      assert s'.buys == s.buys + [k] && s'.sells == s.sells;
      if start == 1 {
        InterleavedExtendSecond(s.sells, s.buys, k);
      } else {
        InterleavedExtendFirst(s.buys, s.sells, k);
      }
    } else {
      assert s'.buys == s.buys && s'.sells == s.sells && s'.invested == s.invested;
    }
  }

  /** The rows before `k` read the same after the step. */
  lemma StepKeepsEarlierRows(s: LoopState, k: nat, start: int, sell: SellRule, buy: BuyRule, i: nat)
    requires Shape(s, k, start) && Bounded(s, k) && i < k
    ensures var s' := Step(s, k, sell, buy);
            && |s'.positions| == k + 1
            && Before(s'.positions, start, i) == Before(s.positions, start, i)
            && s'.positions[i] == s.positions[i]
            && (i in s'.sells <==> i in s.sells) && (i in s'.buys <==> i in s.buys)
  {
    var s' := Step(s, k, sell, buy);
    assert s'.positions == s.positions + [s'.invested];
    BeforeExtend(s.positions, s'.invested, start, i);
  }

  /** Row `k` itself, after the step. */
  lemma StepNewRow(s: LoopState, k: nat, start: int, sell: SellRule, buy: BuyRule)
    requires Shape(s, k, start) && Bounded(s, k)
    ensures var s' := Step(s, k, sell, buy);
            && |s'.positions| == k + 1
            && Before(s'.positions, start, k) == s.invested
            && s'.positions[k] == s'.invested
            && (k in s'.sells <==> s.invested == 1 && s'.invested == 0)
            && (k in s'.buys <==> s.invested != 1 && s'.invested == 1)
  {
    var s' := Step(s, k, sell, buy);
    assert s'.positions == s.positions + [s'.invested];
    BeforeExtend(s.positions, s'.invested, start, k);
    assert k !in s.sells && k !in s.buys;
  }

  lemma StepSellRows(s: LoopState, k: nat, start: int, sell: SellRule, buy: BuyRule)
    requires Shape(s, k, start) && Bounded(s, k) && SellRows(s, k, start)
    ensures |Step(s, k, sell, buy).positions| == k + 1
    ensures SellRows(Step(s, k, sell, buy), k + 1, start)
  {
    var s' := Step(s, k, sell, buy);
    StepNewRow(s, k, start, sell, buy);
    forall i | 0 <= i < k + 1
      ensures SellRow(s', start, i)
    {
      if i < k {
        StepKeepsEarlierRows(s, k, start, sell, buy, i);
        assert SellRow(s, start, i);
      }
    }
  }

  lemma StepBuyRows(s: LoopState, k: nat, start: int, sell: SellRule, buy: BuyRule)
    requires Shape(s, k, start) && Bounded(s, k) && BuyRows(s, k, start)
    ensures |Step(s, k, sell, buy).positions| == k + 1
    ensures BuyRows(Step(s, k, sell, buy), k + 1, start)
  {
    var s' := Step(s, k, sell, buy);
    StepNewRow(s, k, start, sell, buy);
    forall i | 0 <= i < k + 1
      ensures BuyRow(s', start, i)
    {
      if i < k {
        StepKeepsEarlierRows(s, k, start, sell, buy, i);
        assert BuyRow(s, start, i);
      }
    }
  }

  lemma StepQuietRows(s: LoopState, k: nat, start: int, sell: SellRule, buy: BuyRule)
    requires Shape(s, k, start) && Bounded(s, k) && QuietRows(s, k, start)
    ensures |Step(s, k, sell, buy).positions| == k + 1
    ensures QuietRows(Step(s, k, sell, buy), k + 1, start)
  {
    var s' := Step(s, k, sell, buy);
    StepNewRow(s, k, start, sell, buy);
    forall i | 0 <= i < k + 1
      ensures QuietRow(s', start, i)
    {
      if i < k {
        StepKeepsEarlierRows(s, k, start, sell, buy, i);
        assert QuietRow(s, start, i);
      }
    }
  }

  lemma StepRowValues(s: LoopState, k: nat, start: int, sell: SellRule, buy: BuyRule)
    requires Shape(s, k, start) && Bounded(s, k) && RowValues(s, k, start)
    ensures |Step(s, k, sell, buy).positions| == k + 1
    ensures RowValues(Step(s, k, sell, buy), k + 1, start)
  {
    var s' := Step(s, k, sell, buy);
    StepNewRow(s, k, start, sell, buy);
    if k > 0 {
      assert RowValue(s, start, k - 1);
    }
    forall i | 0 <= i < k + 1
      ensures RowValue(s', start, i)
    {
      if i < k {
        StepKeepsEarlierRows(s, k, start, sell, buy, i);
        assert RowValue(s, start, i);
      }
    }
  }

  /** By induction over the rows, in three parts that each carry what their
      step needs. */
  /** The trade lists, the flag and the state together. */
  predicate Core(s: LoopState, k: nat, start: int) {
    Shape(s, k, start) && Bounded(s, k) && SoldFlag(s) && Balance(s, start)
  }

  lemma StepCore(s: LoopState, k: nat, start: int, sell: SellRule, buy: BuyRule)
    requires Core(s, k, start)
    ensures Core(Step(s, k, sell, buy), k + 1, start)
  {
    StepShape(s, k, start, sell, buy);
    StepBounded(s, k, sell, buy);
    StepSoldFlag(s, k, sell, buy);
    StepBalance(s, k, start, sell, buy);
  }

  lemma {:induction false} RunPrefixCore(k: nat, start: int, sell: SellRule, buy: BuyRule)
    ensures Core(RunPrefix(k, start, sell, buy), k, start)
    decreases k
  {
    if k > 0 {
      RunPrefixCore(k - 1, start, sell, buy);
      StepCore(RunPrefix(k - 1, start, sell, buy), k - 1, start, sell, buy);
    }
  }

  lemma {:induction false} RunPrefixSellRows(k: nat, start: int, sell: SellRule, buy: BuyRule)
    ensures |RunPrefix(k, start, sell, buy).positions| == k
    ensures SellRows(RunPrefix(k, start, sell, buy), k, start)
    decreases k
  {
    if k > 0 {
      var p := RunPrefix(k - 1, start, sell, buy);
      RunPrefixCore(k - 1, start, sell, buy);
      RunPrefixSellRows(k - 1, start, sell, buy);
      StepSellRows(p, k - 1, start, sell, buy);
    }
  }

  lemma {:induction false} RunPrefixBuyRows(k: nat, start: int, sell: SellRule, buy: BuyRule)
    ensures |RunPrefix(k, start, sell, buy).positions| == k
    ensures BuyRows(RunPrefix(k, start, sell, buy), k, start)
    decreases k
  {
    if k > 0 {
      var p := RunPrefix(k - 1, start, sell, buy);
      RunPrefixCore(k - 1, start, sell, buy);
      RunPrefixBuyRows(k - 1, start, sell, buy);
      StepBuyRows(p, k - 1, start, sell, buy);
    }
  }

  lemma {:induction false} RunPrefixQuietRows(k: nat, start: int, sell: SellRule, buy: BuyRule)
    ensures |RunPrefix(k, start, sell, buy).positions| == k
    ensures QuietRows(RunPrefix(k, start, sell, buy), k, start)
    decreases k
  {
    if k > 0 {
      var p := RunPrefix(k - 1, start, sell, buy);
      RunPrefixCore(k - 1, start, sell, buy);
      RunPrefixQuietRows(k - 1, start, sell, buy);
      StepQuietRows(p, k - 1, start, sell, buy);
    }
  }

  lemma {:induction false} RunPrefixRowValues(k: nat, start: int, sell: SellRule, buy: BuyRule)
    ensures |RunPrefix(k, start, sell, buy).positions| == k
    ensures RowValues(RunPrefix(k, start, sell, buy), k, start)
    decreases k
  {
    if k > 0 {
      var p := RunPrefix(k - 1, start, sell, buy);
      RunPrefixCore(k - 1, start, sell, buy);
      RunPrefixRowValues(k - 1, start, sell, buy);
      StepRowValues(p, k - 1, start, sell, buy);
    }
  }

  /** Every row that trades is explained by the state change across it. */
  lemma RunPrefixTradeRows(k: nat, start: int, sell: SellRule, buy: BuyRule)
    ensures var s := RunPrefix(k, start, sell, buy);
            Shape(s, k, start) && Bounded(s, k) && SellRows(s, k, start) && BuyRows(s, k, start)
  {
    RunPrefixCore(k, start, sell, buy);
    RunPrefixSellRows(k, start, sell, buy);
    RunPrefixBuyRows(k, start, sell, buy);
  }

  /** Every other row keeps the state, and every position is 0, 1 or the start. */
  lemma RunPrefixOtherRows(k: nat, start: int, sell: SellRule, buy: BuyRule)
    ensures var s := RunPrefix(k, start, sell, buy);
            Shape(s, k, start) && Bounded(s, k) && QuietRows(s, k, start) && RowValues(s, k, start)
  {
    RunPrefixCore(k, start, sell, buy);
    RunPrefixQuietRows(k, start, sell, buy);
    RunPrefixRowValues(k, start, sell, buy);
  }

  lemma RunPrefixInvariant(k: nat, start: int, sell: SellRule, buy: BuyRule)
    ensures Invariant(RunPrefix(k, start, sell, buy), k, start)
  {
    RunPrefixCore(k, start, sell, buy);
    RunPrefixTradeRows(k, start, sell, buy);
    RunPrefixOtherRows(k, start, sell, buy);
  }

  /** What `BaseStrategy.run` guarantees for any sell and buy rules: one
      position per row, 0 or 1 when starting from 0 or 1; trade rows strictly
      increasing, disjoint and alternating (a sell first when starting invested,
      a buy first otherwise); a row's position differs from the state before it
      exactly at a trade row, a sell only from invested and a buy only from cash. */
  lemma RunGuarantees(n: nat, start: int, sell: SellRule, buy: BuyRule)
    ensures var r := Run(n, start, sell, buy);
            && |r.positions| == n
            && ((start == 0 || start == 1) ==> forall i :: 0 <= i < n ==> r.positions[i] == 0 || r.positions[i] == 1)
            && StrictlyIncreasing(r.buys) && StrictlyIncreasing(r.sells)
            && (forall i :: i in r.buys ==> i !in r.sells)
            && Alternates(start, r.buys, r.sells)
            && (forall i :: 0 <= i < n ==>
                  (r.positions[i] != Before(r.positions, start, i) <==> i in r.buys || i in r.sells))
            && (forall i :: 0 <= i < n ==> (i in r.sells <==> Before(r.positions, start, i) == 1 && r.positions[i] == 0))
            && (forall i :: 0 <= i < n ==> (i in r.buys <==> Before(r.positions, start, i) != 1 && r.positions[i] == 1))
  {
    RunPrefixInvariant(n, start, sell, buy);
    var s := RunPrefix(n, start, sell, buy);
    forall i | 0 <= i < n
      ensures s.positions[i] != Before(s.positions, start, i) <==> i in s.buys || i in s.sells
      ensures (i in s.sells <==> Before(s.positions, start, i) == 1 && s.positions[i] == 0)
      ensures (i in s.buys <==> Before(s.positions, start, i) != 1 && s.positions[i] == 1)
      ensures (start == 0 || start == 1) ==> s.positions[i] == 0 || s.positions[i] == 1
    {
      assert SellRow(s, start, i) && BuyRow(s, start, i) && QuietRow(s, start, i) && RowValue(s, start, i);
    }
    forall i | i in s.buys
      ensures i !in s.sells
    {
      var a :| 0 <= a < |s.buys| && s.buys[a] == i;
      assert BuyRow(s, start, i) && SellRow(s, start, i);
    }
  }

  /** The flag handed to the buy rule at row `k` is true exactly when some
      earlier row sold. */
  lemma BuyFlagMeansEarlierSell(k: nat, start: int, sell: SellRule, buy: BuyRule)
    ensures RunPrefix(k, start, sell, buy).wasSold <==>
              exists i :: 0 <= i < k && i in RunPrefix(k, start, sell, buy).sells
  {
    RunPrefixInvariant(k, start, sell, buy);
    var s := RunPrefix(k, start, sell, buy);
    if s.wasSold {
      assert s.sells[0] in s.sells;
    }
  }

  lemma {:induction false} PositionsLength(k: nat, start: int, sell: SellRule, buy: BuyRule)
    ensures |RunPrefix(k, start, sell, buy).positions| == k
    decreases k
  {
    if k > 0 {
      PositionsLength(k - 1, start, sell, buy);
    }
  }

  /** The loop never revises a recorded position: the first `k` positions of a
      longer run are those of the run over the first `k` rows, so a row's
      position depends only on the rows up to it. */
  lemma {:induction false} RunPrefixIsPrefix(k: nat, m: nat, start: int, sell: SellRule, buy: BuyRule)
    requires k <= m
    ensures |RunPrefix(m, start, sell, buy).positions| == m
    ensures RunPrefix(m, start, sell, buy).positions[..k] == RunPrefix(k, start, sell, buy).positions
    decreases m - k
  {
    PositionsLength(m, start, sell, buy);
    PositionsLength(k, start, sell, buy);
    if k < m {
      RunPrefixIsPrefix(k, m - 1, start, sell, buy);
      var p := RunPrefix(m - 1, start, sell, buy).positions;
      var q := RunPrefix(m, start, sell, buy).positions;
      assert q == p + [q[m - 1]];
      assert q[..k] == p[..k];
    }
  }

  /** Every recorded buy row is one where the buy rule fired, given the flag
      the loop held at that row. */
  lemma {:induction false} BuysFiredRule(n: nat, start: int, sell: SellRule, buy: BuyRule)
    ensures forall i :: i in RunPrefix(n, start, sell, buy).buys ==>
              i < n && buy(i, RunPrefix(i, start, sell, buy).wasSold)
    decreases n
  {
    if n > 0 {
      BuysFiredRule(n - 1, start, sell, buy);
    }
  }

  /** A buy rule that refuses when no sell has happened yet (as every rule
      handed `last_action_was_sell` is meant to) only buys after a sell. */
  lemma BuyOnlyAfterSell(n: nat, start: int, sell: SellRule, buy: BuyRule)
    requires forall i: nat :: !buy(i, false)
    ensures forall b :: b in Run(n, start, sell, buy).buys ==>
              exists s :: s in Run(n, start, sell, buy).sells && s < b
  {
    BuysFiredRule(n, start, sell, buy);
    forall b | b in RunPrefix(n, start, sell, buy).buys
      ensures exists s :: s in RunPrefix(n, start, sell, buy).sells && s < b
    {
      BuyFlagMeansEarlierSell(b, start, sell, buy);
      var s :| 0 <= s < b && s in RunPrefix(b, start, sell, buy).sells;
      SellsPersist(b, n, start, sell, buy);
    }
  }

  /** Trade rows recorded after `k` rows stay recorded. */
  lemma {:induction false} SellsPersist(k: nat, m: nat, start: int, sell: SellRule, buy: BuyRule)
    requires k <= m
    ensures forall s :: s in RunPrefix(k, start, sell, buy).sells ==> s in RunPrefix(m, start, sell, buy).sells
    decreases m - k
  {
    if k < m {
      SellsPersist(k, m - 1, start, sell, buy);
    }
  }

  /** Started in cash with such a buy rule, the loop never trades: there is
      nothing to sell, so the flag stays false and every buy is refused. */
  lemma {:induction false} CashStartNeverTrades(n: nat, start: int, sell: SellRule, buy: BuyRule)
    requires start != 1
    requires forall i: nat :: !buy(i, false)
    ensures RunPrefix(n, start, sell, buy) == LoopState(start, false, seq(n, _ => start), [], [])
    decreases n
  {
    if n > 0 {
      CashStartNeverTrades(n - 1, start, sell, buy);
      assert seq(n, _ => start) == seq(n - 1, _ => start) + [start];
    }
  }

  /** `BuyAndHoldStrategy.run`: invested in every row whatever the start, no trades. */
  function BuyHoldRun(n: nat, start: int): (r: RunResult)
    ensures |r.positions| == n && r.buys == [] && r.sells == []
    ensures forall i :: 0 <= i < n ==> r.positions[i] == 1
  {
    RunResult(seq(n, _ => 1), [], [])
  }

  /** The buy-and-hold rules: never buy, never sell. */
  function NeverSell(i: nat): bool { false }
  function NeverBuy(i: nat, lastActionWasSell: bool): bool { false }

  /** With rules that never fire, the loop holds its starting state in every row. */
  lemma {:induction false} IdleLoop(n: nat, start: int)
    ensures RunPrefix(n, start, NeverSell, NeverBuy) == LoopState(start, false, seq(n, _ => start), [], [])
    decreases n
  {
    if n > 0 {
      IdleLoop(n - 1, start);
      assert seq(n, _ => start) == seq(n - 1, _ => start) + [start];
    }
  }

  /** With rules that never fire, the shared loop started invested gives the
      buy-and-hold positions, and started in cash stays in cash: the override
      is what makes buy-and-hold ignore `start_invested`. */
  lemma BuyHoldMatchesLoopStartedInvested(n: nat)
    ensures Run(n, 1, NeverSell, NeverBuy) == BuyHoldRun(n, 0)
    ensures Run(n, 0, NeverSell, NeverBuy) == RunResult(seq(n, _ => 0), [], [])
  {
    IdleLoop(n, 1);
    IdleLoop(n, 0);
  }
}

=== FILE: tab.dfy ===
/** The optimizer tab: starting a sweep from the edited ranges, highlighting
    the best row when a result arrives, the progress percentage, and the
    drill-down that opens one row's equity curve.  A drill-down reuses the
    sweep's best result when the row is the best tuple and otherwise starts an
    independent one-point sweep whose controller is never kept, so it is never
    aborted; its frames, like the session's, carry no identity. */
module Tab {
  import opened Wrappers
  import opened Numeric
  import opened Types
  import Grid
  import Session
  import Table
  import Lifecycle

  /** A network request the tab starts. */
  datatype Request = SweepRequest(grids: Grids) | BuyHoldRequest

  datatype TabState = TabState(
    session: Session.State,
    ranges: ParamRanges,
    collapsed: bool,
    selected: Option<StrategyParams>,
    chartParams: Option<StrategyParams>,
    drillResult: Option<BacktestResult>,
    drillLoading: bool,
    drillError: Option<string>,
    buyholdResult: Option<BacktestResult>,
    buyholdError: Option<string>,
    requests: seq<Request>)

  /** The tab as first shown, with the configured default ranges. */
  function Initial(defaultRanges: ParamRanges): TabState {
    TabState(Session.Initial, defaultRanges, false, None, None, None, false, None, None, None, [])
  }

  /** `handleRun`: expand the ranges into grids, start the session (controller
      `c`) and the buy-and-hold overlay request, collapse the panel and clear the
      selection, the open chart, its result and the overlay. */
  function HandleRun(t: TabState, c: Session.ControllerId): (t': TabState)
    requires Grid.RangesTerminate(t.ranges)
  {
    t.(session := Session.Run(t.session, c),
       collapsed := true,
       selected := None,
       chartParams := None,
       drillResult := None,
       buyholdResult := None,
       buyholdError := None,
       requests := t.requests + [SweepRequest(Grid.BuildGrids(t.ranges)), BuyHoldRequest])
  }

  /** After `handleRun` the session is loading afresh, the sweep request carries
      an all-integer MA grid, and selection, chart, drill result and overlay are
      cleared, while the drill's loading flag and error are left alone. */
  lemma HandleRunResets(t: TabState, c: Session.ControllerId)
    requires Grid.RangesTerminate(t.ranges)
    ensures var t' := HandleRun(t, c);
            && t'.session.loading && t'.session.result.None? && t'.session.error.None?
            && t'.session.progress.None?
            && t'.selected.None? && t'.chartParams.None? && t'.drillResult.None?
            && t'.buyholdResult.None? && t'.buyholdError.None? && t'.collapsed
            && t'.drillLoading == t.drillLoading && t'.drillError == t.drillError
            && |t'.requests| == |t.requests| + 2
            && t'.requests[|t.requests|].SweepRequest?
            && (forall i :: 0 <= i < |t'.requests[|t.requests|].grids.MA| ==>
                              IsIntegral(t'.requests[|t.requests|].grids.MA[i]))
            && t'.requests[|t.requests| + 1] == BuyHoldRequest
  {
    Grid.BuildGridsShape(t.ranges);
  }

  /** A session frame reaching the tab: the hook's handler, then the effect that
      highlights the best tuple whenever a result arrives. */
  function OnSessionFrame(t: TabState, f: Frame): (t': TabState)
    ensures f.ResultFrame? ==> t'.selected == Some(f.response.bestParams)
    ensures !f.ResultFrame? ==> t'.selected == t.selected
    ensures t'.session == Session.OnFrame(t.session, f)
  {
    var t1 := t.(session := Session.OnFrame(t.session, f));
    if f.ResultFrame? then t1.(selected := Some(f.response.bestParams)) else t1
  }

  /** The buy-and-hold overlay request settling. */
  function OnBuyHold(t: TabState, o: Lifecycle.Outcome<BacktestResult>): (t': TabState)
    ensures o.Resolved? ==> t'.buyholdResult == Some(o.data) && t'.buyholdError == t.buyholdError
    ensures o.Rejected? ==> t'.buyholdError == Some(o.text) && t'.buyholdResult == t.buyholdResult
  {
    match o
    case Resolved(r) => t.(buyholdResult := Some(r))
    case Rejected(e) => t.(buyholdError := Some(e))
  }

  /** The grids of a one-point sweep at `p`. */
  function SingletonGrids(p: StrategyParams): Grids {
    Grids([p.MA], [p.DROP], [p.CHG4], [p.RET3], [p.SPREAD_LVL])
  }

  /** `handleToggleChart`. */
  function HandleToggleChart(t: TabState, p: StrategyParams): TabState {
    if t.chartParams.Some? && Table.ParamsMatch(t.chartParams.value, p) then
      t.(chartParams := None, drillResult := None)
    else
      var t1 := t.(chartParams := Some(p), drillError := None);
      if t.session.result.Some? && Table.ParamsMatch(t.session.result.value.bestParams, p) then
        t1.(drillResult := Some(t.session.result.value.bestResult))
      else
        t1.(drillResult := None, drillLoading := true, requests := t.requests + [SweepRequest(SingletonGrids(p))])
  }

  /** Toggling the open row closes it and issues no request. */
  lemma ToggleOpenRowCloses(t: TabState, p: StrategyParams)
    requires t.chartParams == Some(p)
    ensures var t' := HandleToggleChart(t, p);
            t'.chartParams.None? && t'.drillResult.None? && t'.requests == t.requests
            && t'.session == t.session
  {
  }

  /** Toggling the best tuple shows the cached best result at once, with no request. */
  lemma ToggleBestReusesCachedResult(t: TabState, p: StrategyParams)
    requires t.chartParams != Some(p)
    requires t.session.result.Some? && t.session.result.value.bestParams == p
    ensures var t' := HandleToggleChart(t, p);
            t'.chartParams == Some(p) && t'.drillResult == Some(t.session.result.value.bestResult)
            && t'.drillError.None? && t'.requests == t.requests && t'.session == t.session
  {
    Table.ParamsMatchIsEquality(p, p, p);
  }

  /** Toggling any other closed row starts a one-point sweep at that tuple and
      shows it loading; the session and its controller are not touched. */
  lemma ToggleOtherRowRequestsOnePoint(t: TabState, p: StrategyParams)
    requires t.chartParams != Some(p)
    requires t.session.result.None? || t.session.result.value.bestParams != p
    ensures var t' := HandleToggleChart(t, p);
            t'.chartParams == Some(p) && t'.drillResult.None? && t'.drillLoading && t'.drillError.None?
            && t'.requests == t.requests + [SweepRequest(Grids([p.MA], [p.DROP], [p.CHG4], [p.RET3], [p.SPREAD_LVL]))]
            && t'.session == t.session
  {
    if t.chartParams.Some? {
      Table.ParamsMatchIsEquality(t.chartParams.value, p, p);
    }
    if t.session.result.Some? {
      Table.ParamsMatchIsEquality(t.session.result.value.bestParams, p, p);
    }
  }

  /** Toggling the same row twice from closed leaves no chart open, and the
      second toggle issues no request. */
  lemma ToggleTwiceCloses(t: TabState, p: StrategyParams)
    requires t.chartParams.None?
    ensures var t1 := HandleToggleChart(t, p);
            var t2 := HandleToggleChart(t1, p);
            t2.chartParams.None? && t2.drillResult.None? && t2.requests == t1.requests
  {
    Table.ParamsMatchIsEquality(p, p, p);
  }

  /** `String(new Error(msg))`. */
  function ErrorText(msg: string): string {
    if msg == [] then "Error" else "Error: " + msg
  }

  /** A frame of a drill-down's one-point sweep: progress is ignored; a result
      shows its best backtest; an error is recorded (first as the message, then
      by the `catch` as the rejected Error's text); either ends the loading. */
  function OnDrillFrame(t: TabState, f: Frame): (t': TabState)
    ensures f.ProgressFrame? ==> t' == t
    ensures f.IsTerminal() ==> !t'.drillLoading && t'.chartParams == t.chartParams && t'.session == t.session
    ensures f.ResultFrame? ==> t'.drillResult == Some(f.response.bestResult) && t'.drillError == t.drillError
    ensures f.ErrorFrame? ==> t'.drillError == Some(ErrorText(f.message)) && t'.drillResult == t.drillResult
  {
    match f
    case ProgressFrame(_, _) => t
    case ResultFrame(r) => t.(drillResult := Some(r.bestResult), drillLoading := false)
    case ErrorFrame(m) =>
      var t1 := t.(drillError := Some(m));
      t1.(drillError := Some(ErrorText(m)), drillLoading := false)
  }

  /** A drill-down that went to the network settles with the sweep's best
      backtest, or with the error text "Error: <message>", and stops loading;
      the main session's error is never touched. */
  lemma DrillSettles(t: TabState, p: StrategyParams, f: Frame)
    requires t.chartParams != Some(p)
    requires t.session.result.None? || t.session.result.value.bestParams != p
    requires f.IsTerminal()
    ensures var t' := OnDrillFrame(HandleToggleChart(t, p), f);
            !t'.drillLoading && t'.chartParams == Some(p) && t'.session.error == t.session.error
            && (f.ResultFrame? ==> t'.drillResult == Some(f.response.bestResult) && t'.drillError.None?)
            && (f.ErrorFrame? ==> t'.drillError == Some(ErrorText(f.message)) && t'.drillResult.None?)
            && (f.ErrorFrame? && f.message != [] ==> t'.drillError == Some("Error: " + f.message))
  {
    ToggleOtherRowRequestsOnePoint(t, p);
  }

  /** A drill frame is applied to whatever row is open when it arrives: a late
      result from an earlier row's request replaces the open row's chart. */
  lemma LateDrillResultShowsUnderOpenRow(t: TabState, p: StrategyParams, q: StrategyParams, r: OptimizerResponse)
    requires p != q
    requires t.chartParams.None?
    requires t.session.result.None?
    ensures var t1 := HandleToggleChart(HandleToggleChart(t, p), q);
            var t2 := OnDrillFrame(t1, ResultFrame(r));
            t2.chartParams == Some(q) && t2.drillResult == Some(r.bestResult)
            && t1.requests == t.requests + [SweepRequest(SingletonGrids(p)), SweepRequest(SingletonGrids(q))]
  {
    Table.ParamsMatchIsEquality(p, q, q);
  }

  /** `progressPct`: `Math.round(current / total * 100)`, 0 with no progress; a
      zero total gives a non-finite number, modelled as None. */
  function ProgressPct(progress: Option<Session.Progress>): Option<int> {
    match progress
    case None => Some(0)
    case Some(pr) => if pr.total == 0 then None else Some(JsRound(pr.current as real / pr.total as real * 100.0))
  }

  /** With `0 <= current <= total` and a positive total the percentage lies in 0..100. */
  lemma ProgressPctInRange(pr: Session.Progress)
    requires 0 <= pr.current <= pr.total && pr.total > 0
    ensures ProgressPct(Some(pr)).Some?
    ensures 0 <= ProgressPct(Some(pr)).value <= 100
    ensures pr.current == pr.total ==> ProgressPct(Some(pr)).value == 100
    ensures pr.current == 0 ==> ProgressPct(Some(pr)).value == 0
  {
    var q := pr.current as real / pr.total as real;
    assert 0.0 <= q <= 1.0 by {
      assert q * pr.total as real == pr.current as real;
    }
    assert 0.0 <= q * 100.0 <= 100.0;
    FloorIs(q * 100.0 + 1.0 / 2.0, JsRound(q * 100.0));
    if pr.current == pr.total {
      DivSelf(pr.total as real);
      assert q == 1.0;
      FloorIs(100.0 + 1.0 / 2.0, 100);
    }
  }
}

=== FILE: table.dfy ===
/** The sweep's result table: the projection of a row onto its parameter
    tuple, tuple equality, the sort-header state machine, the sorted view of
    the rows and each row's highlight/expanded flags. */
module Table {
  import opened Wrappers
  import opened Types
  import Sorting

  /** `toParams`: the row's five parameter fields. */
  function ToParams(row: ResultRow): StrategyParams {
    StrategyParams(row.MA, row.DROP, row.CHG4, row.RET3, row.SPREAD_LVL)
  }

  /** Two rows project to the same tuple exactly when their five parameter
      fields agree; their APY and final value play no part. */
  lemma ToParamsDropsPerformance(a: ResultRow, b: ResultRow)
    ensures ToParams(a) == ToParams(b) <==>
              (a.MA == b.MA && a.DROP == b.DROP && a.CHG4 == b.CHG4 && a.RET3 == b.RET3
               && a.SPREAD_LVL == b.SPREAD_LVL)
    ensures ToParams(a) == ToParams(a.(APY := b.APY, finalValue := b.finalValue))
  {
  }

  /** `paramsMatch`: field-wise `===` over the five fields. */
  predicate ParamsMatch(a: StrategyParams, b: StrategyParams) {
    a.MA == b.MA && a.DROP == b.DROP && a.CHG4 == b.CHG4 && a.RET3 == b.RET3 && a.SPREAD_LVL == b.SPREAD_LVL
  }

  /** Field-wise matching is tuple equality, hence reflexive, symmetric and
      transitive. */
  lemma ParamsMatchIsEquality(a: StrategyParams, b: StrategyParams, c: StrategyParams)
    ensures ParamsMatch(a, b) <==> a == b
    ensures ParamsMatch(a, a)
    ensures ParamsMatch(a, b) ==> ParamsMatch(b, a)
    ensures ParamsMatch(a, b) && ParamsMatch(b, c) ==> ParamsMatch(a, c)
  {
  }

  /** The table's sortable columns. */
  datatype SortKey = ByMa | ByDrop | ByChg4 | ByRet3 | BySpreadLvl | ByApy | ByFinalValue

  datatype SortDir = Asc | Desc

  datatype SortState = SortState(key: SortKey, dir: SortDir)

  /** The table opens sorted by APY, best first. */
  const InitialSort := SortState(ByApy, Desc)

  /** `handleSort`: clicking the current column flips the direction; clicking
      another column sorts by it, descending. */
  function HandleSort(s: SortState, k: SortKey): (s': SortState)
    ensures s'.key == k
    ensures k == s.key ==> s'.dir != s.dir
    ensures k != s.key ==> s'.dir == Desc
  {
    if k == s.key then s.(dir := if s.dir == Asc then Desc else Asc)
    else SortState(k, Desc)
  }

  /** Clicking the same column twice restores the order; clicking a new column
      twice sorts by it ascending. */
  lemma HandleSortTwice(s: SortState, k: SortKey)
    ensures k == s.key ==> HandleSort(HandleSort(s, k), k) == s
    ensures k != s.key ==> HandleSort(HandleSort(s, k), k) == SortState(k, Asc)
  {
  }

  /** The value of a row in a column. */
  function KeyValue(row: ResultRow, k: SortKey): real {
    match k
    case ByMa => row.MA
    case ByDrop => row.DROP
    case ByChg4 => row.CHG4
    case ByRet3 => row.RET3
    case BySpreadLvl => row.SPREAD_LVL
    case ByApy => row.APY
    case ByFinalValue => row.finalValue
  }

  /** The rank the comparator induces: the key ascending, its negation descending. */
  function Rank(s: SortState, row: ResultRow): real {
    if s.dir == Asc then KeyValue(row, s.key) else -KeyValue(row, s.key)
  }

  function RankFn(s: SortState): ResultRow -> real {
    r => Rank(s, r)
  }

  /** `sorted`: a copy of the rows in comparator order; the sort is stable, so
      rows with equal keys keep their input order. */
  function SortedRows(rows: seq<ResultRow>, s: SortState): (out: seq<ResultRow>)
    ensures multiset(out) == multiset(rows)
    ensures s.dir == Asc ==> forall i, j :: 0 <= i < j < |out| ==> KeyValue(out[i], s.key) <= KeyValue(out[j], s.key)
    ensures s.dir == Desc ==> forall i, j :: 0 <= i < j < |out| ==> KeyValue(out[i], s.key) >= KeyValue(out[j], s.key)
    ensures Sorting.Stable(rows, out, RankFn(s))
  {
    var rank := RankFn(s);
    var out := Sorting.SortBy(rows, rank);
    assert Sorting.SortedBy(out, rank);
    assert Sorting.Stable(rows, out, rank);
    out
  }

  /** A row's display flags. */
  datatype RowFlags = RowFlags(selected: bool, chartOpen: bool)

  /** A row is highlighted when it matches the selected tuple and expanded when
      it matches the open chart's tuple. */
  function FlagsOf(row: ResultRow, selectedRow: Option<StrategyParams>, chartParams: Option<StrategyParams>): (f: RowFlags)
    ensures f.selected <==> selectedRow == Some(ToParams(row))
    ensures f.chartOpen <==> chartParams == Some(ToParams(row))
  {
    RowFlags(
      if selectedRow.Some? then ParamsMatch(ToParams(row), selectedRow.value) else false,
      if chartParams.Some? then ParamsMatch(ToParams(row), chartParams.value) else false)
  }
}

=== FILE: types.dfy ===
/** The records the client and the server exchange: the strategy's parameter
    tuple, the sweep's grids and result rows, a backtest's equity curve and
    trade history, and the frames of the sweep stream. */
module Types {
  import opened Wrappers

  /** A calendar day.  The server formats days as ISO `YYYY-MM-DD` text, which
      is equal for equal days and ordered like the days, so a day number
      stands for the text wherever dates are compared or sorted. */
  type Date = int

  /** One point of the strategy's parameter space. */
  datatype StrategyParams = StrategyParams(MA: real, DROP: real, CHG4: real, RET3: real, SPREAD_LVL: real)

  /** The five parameter names, used where the source indexes a record by name. */
  datatype ParamName = Ma | Drop | Chg4 | Ret3 | SpreadLvl

  /** One row of a sweep's result table: a tuple with its performance. */
  datatype ResultRow = ResultRow(MA: real, DROP: real, CHG4: real, RET3: real, SPREAD_LVL: real,
                                 APY: real, finalValue: real)

  /** The candidate values of each parameter; the sweep is their Cartesian product. */
  datatype Grids = Grids(MA: seq<real>, DROP: seq<real>, CHG4: seq<real>, RET3: seq<real>, SPREAD_LVL: seq<real>)

  /** A `{min, max, step}` range as edited in the parameter panel. */
  datatype ParamRange = ParamRange(min: real, max: real, step: real)

  /** The field names of a `ParamRange`. */
  datatype RangeField = Min | Max | Step

  datatype ParamRanges = ParamRanges(MA: ParamRange, DROP: ParamRange, CHG4: ParamRange,
                                     RET3: ParamRange, SPREAD_LVL: ParamRange)

  /** One week of a backtest's equity curve. */
  datatype EquityPoint = EquityPoint(date: Date, strategy: real)

  datatype Action = Buy | Sell

  /** One executed trade with the indicator values of its week (None where the
      indicator is NaN). */
  datatype TradeEvent = TradeEvent(date: Date, action: Action, price: real, spread: Option<real>,
                                   chg4: Option<real>, ret3: Option<real>, spreadDelta: Option<real>)

  datatype BacktestResult = BacktestResult(equityCurve: seq<EquityPoint>, buyDates: seq<Date>,
                                           sellDates: seq<Date>, tradeHistory: seq<TradeEvent>,
                                           finalValue: real, apy: real)

  datatype OptimizerResponse = OptimizerResponse(bestParams: StrategyParams, bestResult: BacktestResult,
                                                 allResults: seq<ResultRow>)

  /** One frame of the sweep stream: any number of progress frames, then one
      result or error frame. */
  datatype Frame =
    | ProgressFrame(current: int, total: int)
    | ResultFrame(response: OptimizerResponse)
    | ErrorFrame(message: string)
  {
    predicate IsTerminal() {
      !ProgressFrame?
    }
  }
}

=== FILE: wrappers.dfy ===
/** Failure-compatible optional values, used wherever the source has `null`,
    `None`, `undefined` or a floating-point NaN. */
module Wrappers {

  datatype Option<+T> = None | Some(value: T) {

    /** The carried value, or `default` when there is none (JavaScript `??`). */
    function GetOr(default: T): T {
      match this
      case Some(v) => v
      case None => default
    }
  }

  /** A computation that either succeeds with a value or fails with a message
      (a Python exception whose text is `str(exc)`). */
  datatype Result<+R> = Success(value: R) | Failure(message: string)
}
